=== FILE: README.md ===
# KhetScore season simulator — a Dafny model

KhetScore is a single-page web application for agricultural field staff. A
signed-in user looks up a farmer from a dataset. The farmer then plays three
growing seasons, alternating Rabi and Kharif. Each season the farmer:

- picks at least seven of 24 farming practices;
- may be hit by a random weather shock;
- gets a new Khetscore (0–100) from the practice weights and the shock;
- states, practice by practice, how likely they are to adopt it.

Users can leave mid-simulation, which saves a draft to resume later. They
can go back through the screens and save the finished simulation to their
list. A finished simulation can be exported as a one-row CSV.

This project models that logic from `src/App.js` as pure functions over
immutable records:

- `Catalog`: the practice and shock catalogs.
- `Scoring`: the scoring step, in exact integer hundredths.
- `Selection`: ticking and unticking practices.
- `Text` and `Farmers`: the farmer search.
- `Session`: one simulation session, with a `Screen` enumeration and one
  transition function per event handler.
- `Flow`: which buttons each screen enables, and runs of events.
- `Drafts`: saving and resuming drafts.
- `App`: users, login, and saving simulations over a storage map.
- `Export`: the CSV export row.

Scores, weights and shock impacts are integers in hundredths: 51.87 is
`5187`, weight 0.4 is `40`, and the Flood impact −0.20 is `-20`. The
scoring step computes `cur + bonus − |impact × cur|` exactly, in
ten-thousandths. It clamps the result to [0, 100] and rounds half-up to
hundredths.

The two `Math.random()` draws of a practice submission are parameters: the
shock/no-shock bit and the shock index. So are timestamps and
`Date.now()`. The browser's local storage is a `Store` record. It holds the
user list, the signed-in user, and a map from user name to saved
simulations and to draft.

## Model

| member | source | states |
|---|---|---|
| Catalog.Weight | src/App.js:5-30 | every practice weight lies between 0.05 and 0.40 |
| Catalog.PracticesShape | src/App.js:5-30 | the catalog has 24 practices numbered 1..24 in order |
| Catalog.ShocksShape | src/App.js:32-37 | there are four shocks with distinct names; each lowers the score by between 10% and 20% |
| Catalog.FindIn | src/App.js:373 | `practices.find`: none exactly when no row has the id, otherwise the first row with that id |
| Catalog.FindPracticeById | src/App.js:373 | looking a practice up by id succeeds exactly for ids 1..24 and gives that id's name and weight |
| Scoring.Bonus | src/App.js:372-375 | the bonus of n selected practices lies between 0.05·n and 0.40·n |
| Scoring.BonusAppend | src/App.js:372-375 | selecting one more practice adds exactly its weight to the bonus |
| Scoring.BonusSplit | src/App.js:372-375 | taking any one practice out of the list subtracts exactly its weight |
| Scoring.BonusOrderFree | src/App.js:372-375 | two selections with the same practices, in any order, have the same bonus |
| Scoring.ShockFor | src/App.js:368-369 | a shock is drawn exactly when the first draw says so, and it is the catalog shock at the drawn index |
| Scoring.NewScore | src/App.js:377-380 | the new score lies in [0, 100] and is within half a hundredth of the clamped exact value (round half-up to two decimals) |
| Scoring.ScoreSeason | src/App.js:368-380 | a scoring step yields a shock iff one was drawn, and then the catalog shock at the drawn index; the score is the new score for the selection's bonus under that shock, and lies in [0, 100] |
| Scoring.NoShockSaturates | src/App.js:378-379 | without a shock the score is exactly 100 whenever current score plus bonus reaches 100 |
| Scoring.NoShockAddsBonus | src/App.js:377-380 | without a shock and below the cap the new score is exactly the current score plus the bonus |
| Scoring.NewScoreMonotoneInBonus | src/App.js:378-379 | a larger bonus never gives a lower new score |
| Scoring.ShockNeverHelps | src/App.js:377-379 | a shock never gives a higher new score than no shock |
| Scoring.WorkedExample | src/App.js:5-12 | practices 1–7 give a bonus of 1.87; 50.00 becomes 51.87 without a shock, and 51.87 becomes 43.37 under Flood |
| Base.Remove | src/App.js:353-359 | `filter(id => id !== x)`: the result lacks x, keeps every other element, and leaves a list without x unchanged; a one-element list is kept or emptied |
| Base.RemoveConcat | src/App.js:353-359 | removing from `a + b` is removing from `a` followed by removing from `b`, so the kept ids stay in their original order |
| Base.RemoveAppended | src/App.js:353-359 | removing a just-appended id that was not in the list gives back the list |
| Base.RemoveNoDup | src/App.js:353-359 | removing from a duplicate-free list keeps it duplicate-free and shortens it by one when the id was present |
| Base.RemoveMultiset | src/App.js:353-359 | removing a present id from a duplicate-free list takes away exactly one occurrence |
| Selection.Toggle | src/App.js:353-359 | toggling flips membership of the id and leaves every other id's membership as it was; an absent id is appended at the end, a present one is filtered out with the rest in order |
| Selection.ToggleKeepsNoDup | src/App.js:353-359 | toggling keeps the selection duplicate-free and changes its size by exactly one |
| Selection.ToggleTwiceAbsent | src/App.js:353-359 | toggling an unselected practice twice restores the original list |
| Selection.ToggleTwicePresent | src/App.js:353-359 | toggling a selected practice twice keeps the same practices, with that one moved to the end |
| Selection.ToggleKeepsKnown | src/App.js:353-359 | toggling a catalog practice keeps every selected id in the catalog |
| Selection.ToggleBonus | src/App.js:353-359 | ticking adds the practice's weight to the next bonus; unticking subtracts it |
| Text.LowerChar | src/App.js:338-339 | ASCII capitals map to their lower-case letter; every other character is kept |
| Text.Lower | src/App.js:338-339 | lower-casing keeps the length and maps each character |
| Text.LowerIdempotent | src/App.js:338-339 | lower-casing twice is lower-casing once |
| Text.ContainsIff | src/App.js:338-339 | `includes` holds exactly when the needle occurs at some position of the haystack |
| Text.ContainsSelf | src/App.js:338-339 | every string includes itself |
| Text.Blank | src/App.js:334 | `trim() === ''`: a string is blank exactly when every character is white space; the empty string is blank |
| Farmers.FindFarmer | src/App.js:308 | exact-id lookup: none iff no row has the id, otherwise the first row with it |
| Farmers.FilterRows | src/App.js:337-340 | the filtered rows are exactly the dataset rows whose lower-cased id or name includes the lower-cased query; a single row is kept iff it matches |
| Farmers.FilterConcat | src/App.js:337-340 | filtering `a + b` is filtering `a` followed by filtering `b`, so the matches keep the dataset's order |
| Farmers.Search | src/App.js:334-341 | a blank entry gives no matches; otherwise the matches are the dataset rows that match the query, in dataset order |
| Farmers.PickedRowIsFound | src/App.js:307-309 | a farmer picked from the dataset is then found by the exact lookup |
| Farmers.FindUnique | src/App.js:308 | with unique ids the lookup returns that very row |
| Farmers.TypedIdIsListed | src/App.js:334-341 | typing a farmer's full id, in any letter case, always lists that farmer |
| Session.SeasonLabel | src/App.js:409 | a season label is Rabi or Kharif |
| Session.SeasonLabelsAlternate | src/App.js:409 | season 1 is Rabi and consecutive seasons have different labels |
| Session.Initial | src/App.js:47-65 | before any lookup the session shows the dashboard at season 1 with nothing typed, selected, answered, recorded or in the history |
| Session.FreshHistory | src/App.js:319-323 | a lookup sets up history slots for seasons 1, 2 and 3, each empty at the looked-up score |
| Session.AllAnswered | src/App.js:1376 | the likelihood submit condition: an empty selection is trivially answered, and when it holds every selected practice has an answer |
| Session.AllAnsweredMembers | src/App.js:1376 | the condition holds exactly when every selected practice has an answer, whatever the order of the selection |
| Session.PracticeNamesOf | src/App.js:410 | a season record lists the selected practices' names, in selection order |
| Session.EditFarmerId | src/App.js:330-345 | typing clears the error; a blank entry closes the dropdown; otherwise the matches are the matching rows in dataset order, and the dropdown shows iff there are any; nothing else changes |
| Session.PickFarmer | src/App.js:347-351 | picking fills in the farmer's id and closes and empties the dropdown, and nothing else changes |
| Session.LookupAsWritten | src/App.js:307-328 | the lookup as written: an unknown id only sets "Farmer ID not found"; a known id starts season 1 at the farmer's score with fresh history and no records, and keeps the old selections, shock and answers as well as the dataset, typed id and match list |
| Session.Lookup | src/App.js:307-328 | the corrected lookup: on success it also starts with no selections, no shock and no answers |
| Session.BeginSeason | src/App.js:1192 | the intro button opens practice selection and changes nothing else |
| Session.TogglePractice | src/App.js:353-359 | a tick flips exactly that practice's membership, the selection becomes its toggle (appended when new, filtered out otherwise), and nothing else changes |
| Session.SubmitPractices | src/App.js:361-395 | fewer than 7 selections only sets the error; otherwise the shock is drawn, the farmer's score becomes the new score in [0, 100], and only this season's history slot is updated to the practices, shock and score, keeping its answers |
| Session.ContinueWeather | src/App.js:397-400 | the likelihood screen opens with no answers |
| Session.AnswerPractice | src/App.js:402-404 | one answer is set, and every other answer is unchanged |
| Session.CurrentRecord | src/App.js:407-414 | a season record carries the season, its label, the practice names, the shock name or "None", the end score and the answers |
| Session.SubmitLikelihoodAsWritten | src/App.js:406-436 | appends the season's record and stores the answers in its history slot, which keeps its practices, shock and score; before season 3 it moves to the next intro with selections and shock cleared but answers kept; after season 3 it shows the summary; nothing else changes |
| Session.SubmitLikelihood | src/App.js:406-436 | the corrected submit: as written, except that moving to the next season also clears the answers |
| Session.Back | src/App.js:502-529 | the Back transition table; from a later intro or from the summary it restores the previous (or third) season's practices and answers from the history; it never changes the records, farmer or history |
| Flow.Enabled | src/App.js:1277 | which control each screen offers: practice submit needs at least seven selections (1277), assessment submit needs every practice answered (1376, 1454), answers are only for selected practices, a farmer is picked from the dropdown or from the full list (1046-1047, 1114-1116), and Back is only offered inside a simulation |
| Flow.Step | src/App.js:307-529 | the handler each enabled action invokes, as written or corrected: the dataset never changes, an assessment submission appends exactly this season's record, and no action other than it and a lookup touches the records |
| Flow.StepKeepsValid | src/App.js:502-529 | every enabled action (for the handlers as written and for the corrected ones) keeps the season in 1..3, the selections duplicate-free catalog ids, and the farmer and three history slots present during a simulation |
| Flow.SubmitKeepsValid | src/App.js:361-395 | a practice submission keeps the session valid |
| Flow.AssessKeepsValid | src/App.js:406-436 | a likelihood submission, as written and corrected, keeps the session valid |
| Flow.BackKeepsValid | src/App.js:502-529 | Back keeps the session valid, so Back never reads a missing history slot |
| Flow.LookupKeepsValid | src/App.js:307-328 | a lookup, as written and corrected, keeps the session valid |
| Flow.Run | src/App.js:1277 | any run of enabled actions (for the handlers as written and for the corrected ones), including picks from the dropdown or the full farmer list, from a valid session ends in a valid session |
| Flow.StepKeepsRecordsInv | src/App.js:406-436 | every action (for the handlers as written and for the corrected ones) keeps at least one record per completed season, and a Rabi/Kharif label on each record |
| Flow.RunKeepsRecordsInv | src/App.js:406-436 | whatever mix of forward and Back actions (for the handlers as written and for the corrected ones), the summary is never shown with fewer than three records |
| Flow.BackThenResubmitAppends | src/App.js:520-528 | Back from the summary and a second submission (for the handlers as written and for the corrected ones) append a fourth record for season 3; earlier records are kept |
| Flow.LookupStartsForward | src/App.js:307-328 | a successful lookup (for the handlers as written and for the corrected ones) starts season 1 with no records |
| Flow.StepKeepsForwardInv | src/App.js:406-436 | each forward action (for the handlers as written and for the corrected ones) appends a record exactly when it is an assessment submission |
| Flow.ForwardRun | src/App.js:406-436 | a forward run (for the handlers as written and for the corrected ones) appends one record per assessment submission and keeps the earlier records |
| Flow.ThreeSeasonsToSummary | src/App.js:428-435 | a forward run (for the handlers as written and for the corrected ones) from a lookup to the summary makes exactly three submissions; its records are seasons 1, 2, 3, labelled Rabi, Kharif, Rabi |
| Drafts.Snapshot | src/App.js:152-162 | a draft carries the time it was taken |
| Drafts.ResumeScreenAsWritten | src/App.js:183-193 | `loadDraft`'s resume order, both directions: three records mean summary, then any answer means likelihood, then a shock means weather result, then any selection means practice selection, else season intro |
| Drafts.ResumeScreen | src/App.js:183-193 | the corrected resume order: as written, except that a season already scored resumes on the weather result even without a shock; it agrees with the written order whenever the season is not yet scored |
| Drafts.Restore | src/App.js:171-195 | resuming brings back the seven saved fields, opens the screen the corrected order chooses, and leaves the dataset, the typed id, the error, the matches and the dropdown alone |
| Drafts.RestoreSnapshot | src/App.js:152-181 | resuming a snapshot gives back all seven saved fields, whatever happened in between |
| Drafts.RestoreKeepsValid | src/App.js:171-195 | a snapshot of a valid simulation resumes into a valid session |
| Drafts.AnswersSurviveSeasonAdvance | src/App.js:428-432 | as written (submit and resume order), a draft taken on the next season's intro resumes on the likelihood screen, ahead of where it was taken; after the corrected submit it resumes on the intro |
| Drafts.AnswersSurviveLookup | src/App.js:307-328 | as written (lookup and resume order), a draft taken right after a new lookup resumes on the likelihood screen when an earlier session left answers; after the corrected lookup it resumes on the intro |
| Drafts.LookupStartsClean | src/App.js:307-328 | a corrected lookup starts a walk where nothing of the season is filled in yet |
| Drafts.StepKeepsStageInv | src/App.js:361-436 | each forward action of the corrected walk keeps each screen's not-yet-filled fields empty, and keeps the current season's history slot empty before scoring and equal to the selection after it |
| Drafts.ForwardRunKeepsStageInv | src/App.js:361-436 | a corrected forward run keeps each screen's not-yet-filled fields empty and the history slots in step with the screens |
| Drafts.ResumeNotAhead | src/App.js:183-193 | on a clean (corrected) walk a draft resumes, by the corrected order, no later than where it was taken, and exactly there on the intro and the summary |
| Drafts.ResumeInPlace | src/App.js:183-193 | on a clean walk the corrected order reopens the screen the draft was taken on, or the one just before when nothing there was filled in yet |
| Drafts.ForwardDraftsResumeInPlace | src/App.js:218-224 | every draft saved by Home along a corrected forward walk resumes on its screen, or just before it when nothing there was filled in yet |
| Drafts.RestoreAsWritten | src/App.js:171-195 | resuming with `loadDraft`'s order opens the written resume screen and otherwise gives the same session as the corrected resume |
| Drafts.NoShockResumesOnSelection | src/App.js:186-191 | as written, a draft taken on the weather result of a season with no shock reopens practice selection; the corrected order reopens the weather result |
| Drafts.ResumedResubmitScoresTwice | src/App.js:361-395 | as written, submitting again after that resume is allowed and adds the whole bonus a second time on top of a score that already includes it |
| App.Register | src/App.js:256-291 | an empty username, password or name gives "Please fill in all required fields"; a taken name gives "Username already exists"; otherwise exactly one user is appended, stored and signed in, and the session, simulations, drafts and dialog flag are kept |
| App.RegisterKeepsUnique | src/App.js:267-281 | registration never lets two users share a user name, and adds at most one user |
| App.FindUser | src/App.js:239-240 | login lookup (`users.find`): none iff no user has that name and password, otherwise the first stored user with both |
| App.Login | src/App.js:234-254 | a match signs the user in, drops the in-memory draft, and loads their saved simulations when any are stored, changing nothing else in the store, the session or the dialog flag; otherwise "Invalid username or password" |
| App.RegisterThenLogin | src/App.js:234-291 | a user who has just registered logs in as that same account |
| App.Logout | src/App.js:293-305 | logout signs out, removes only the user's stored draft (other users' drafts survive), clears the simulations list and shows the dashboard; the dialog flag and error are kept |
| App.LogoutThenLogin | src/App.js:121-131 | logging out and back in brings back the stored simulations and no draft |
| App.SaveDraft | src/App.js:152-169 | with a signed-in user the snapshot is stored under their name, replacing only that draft entry, and kept in memory; the user, session and simulations are kept; without one nothing changes |
| App.LoadDraft | src/App.js:171-195 | corrected resume: no draft changes nothing; otherwise the draft is restored, opened on the screen the corrected order chooses, and the dialog closes; the draft stays in memory and the store, user and simulations are kept |
| App.LoadDraftAsWritten | src/App.js:171-195 | resume as written: no draft changes nothing; otherwise the draft is restored, opened on the screen `loadDraft`'s own order chooses, and the dialog closes; the result differs from the corrected resume only in the screen |
| App.DiscardDraft | src/App.js:197-203 | the draft is gone from memory and, for a signed-in user, exactly that user's stored draft is removed; the dialog closes and the session, user, simulations and error are kept |
| App.BeginSimulation | src/App.js:205-211 | with a draft pending only the dialog flag is raised; otherwise the lookup screen opens |
| App.StartNewFromModal | src/App.js:213-216 | unreachable from the interface (the dialog is never rendered), modelled as written: starting new deletes the draft from memory and from the signed-in user's storage, leaving other users' drafts, closes the dialog and opens the lookup screen; nothing else in the session or the account changes |
| App.HomeClick | src/App.js:218-224 | Home always shows the dashboard; mid-session with a signed-in user it stores the snapshot as that user's draft and keeps it in memory, changing nothing else in the store; without a user the storage write throws and only the screen changes; the user and simulations are kept |
| App.HomeThenResume | src/App.js:152-224 | leaving mid-session through Home and resuming gives back the session's saved fields |
| App.SaveSimulation | src/App.js:134-150 | the new simulation is appended; with a user exactly that user's stored list is replaced and that user's draft removed, every other stored entry kept; without one storage and draft are unchanged; the signed-in user and the session are kept |
| App.SaveAndReturn | src/App.js:484-500 | appends one simulation, keeping the earlier ones, with the farmer's name, id, initial and final score and the season records; with a user exactly that user's stored list and draft change, without one storage and draft are unchanged; the session returns to the dashboard at season 1 with no farmer, records or selections, and every other session field is kept |
| App.SaveThenBegin | src/App.js:134-150 | after saving, Begin Simulation goes straight to the lookup screen |
| App.StartNewThenBegin | src/App.js:205-216 | on that unreachable path, after "Start new" Begin Simulation opens the lookup screen, not the draft dialog |
| App.StaleAnswersAfterSaveAndReturn | src/App.js:307-328 | as written (lookup and resume order), saving a simulation that had answers, beginning, looking up the next farmer and pressing Home on the first intro leaves a draft that resumes on the likelihood screen; with the corrected lookup it resumes on the intro under either resume order |
| App.ViewSummary | src/App.js:472-482 | viewing a saved simulation rebuilds the farmer from the dataset row with its id and the saved initial and final scores, shows its seasons on the summary, and leaves season, selections, answers, history and the account alone |
| App.ViewSummaryWithoutHistory | src/App.js:472-482 | viewing a summary in a session with no third history slot offers Back, yet the slot Back reads is missing and the session is not valid; Home then saves that state as a draft |
| App.ViewSummaryAfterLogin | src/App.js:63 | right after login the history is empty, so viewing any saved summary leaves a session that is not valid |
| Export.Join | src/App.js:452 | `join("; ")`: no names give "", and otherwise the text starts with the first name |
| Export.JoinEndsWithLast | src/App.js:452 | the joined text of a nonempty list ends with the last name |
| Export.FindSep | src/App.js:452 | finds the first "; " in a string, or reports that there is none |
| Export.FindSepAfter | src/App.js:452 | after a name without semicolons, the first separator is the one that follows it |
| Export.SplitJoin | src/App.js:452 | splitting a joined, nonempty list of semicolon-free names gives back the list |
| Export.ExportRow | src/App.js:448-461 | fewer than three seasons give no row; otherwise there are 12 cells under the named columns in order, holding the farmer's name, id and initial score, then each season's joined practices, shock and end score |
| Export.ExportPracticesRoundTrip | src/App.js:448-461 | each season's practices cell reads back as that season's practice list |
| Export.CurrentSimulation | src/App.js:438-446 | with no simulation passed in, the export uses the current farmer's name, id and initial score and the session's season records |

## Behaviour notes

- After the likelihood submit for seasons 1 and 2, `handleLikelihoodSubmit` opens the next season's intro screen (src/App.js:428-432).
- A likelihood submit with unanswered practices cannot happen: the button is disabled (src/App.js:1376, 1454), and the handler does not check it. So it is a precondition and an `Enabled` condition, not an error.
- Fewer than seven selections is both an error in the handler and a disabled button (src/App.js:362-365, 1277). The model has both.
- A farmer can be picked from the search dropdown or from the "View All Farmers" table of the whole dataset (src/App.js:1046-1047, 1114-1116). Both call `handleSelectFarmer`.
- `Flow.Step` takes the handler version as a parameter. The Flow lemmas hold for both versions. The draft lemmas about clean walks hold for the corrected version only, and the as-written cases are shown separately.
- Resuming a draft does not always reopen the exact screen. The Findings below give the cases.
- Back on a summary opened from the saved-simulation list reads the third history slot. That slot does not exist right after login (src/App.js:63, 472-482, 524-525), so `handleBackButton` throws a `TypeError`. Home on that summary saves the state as a draft (src/App.js:220-221).

## Left out

- Rendering (JSX), styling, icons, and the dashboard's averages and counts.
- Loading the farmer CSV (`fetch`, Papa Parse). The dataset is a parameter, and each row's Khetscore is an already-parsed number in hundredths. A Khetscore with more than two decimals, or one that parses to NaN, is not modelled.
- `localStorage` and `JSON` serialisation. Storage is a record of plain maps. JSON round-trips are taken to be exact.
- `Math.random()`, `Date.now()` and `new Date().toISOString()`. They become parameters.
- Floating point. Scores are exact hundredths. `toFixed(2)` is modelled as round-half-up on the exact value. IEEE ties and drift in summing weights (e.g. 0.07 + 0.13) are not modelled.
- `Text.Lower`, `Text.Blank`: only ASCII letters are lower-cased, and only ASCII white space plus the no-break space counts as blank. JavaScript's full Unicode `toLowerCase`/`trim` is not modelled.
- `handleLogoClick` (src/App.js:226-232). It is identical to `handleHomeClick`, which is modelled.
- The session restore effect on app launch (src/App.js:106-117), the CSV download itself, and the `try/catch` error messages for storage failures.
- The draft dialog. It is never rendered, so it is modelled only as the `draftModal` flag.
- `Session.SubmitPractices`, `Session.CurrentRecord`, `Session.SubmitLikelihood`: their preconditions (a farmer is loaded, selections come from the catalog, and for the likelihood submit every practice is answered) hold because of the buttons that invoke them. The handlers do not check these themselves.
- `App.SaveAndReturn`, `Export.CurrentSimulation`: they require a loaded farmer. Their controls only appear on the summary screen, where a farmer is always loaded; the handlers would throw on a missing farmer.
- `Session.Back` requires the history slots it reads. `Flow.BackKeepsValid` and `Flow.Run` show that every session reachable through the session events of `Flow.Step` has them. A summary opened by `App.ViewSummary` may lack them (`App.ViewSummaryWithoutHistory`). The model does not define Back there, where `handleBackButton` throws.
- `App.ViewSummary`: a simulation whose farmer id is not in the dataset gives a placeholder row with empty id and name and score 0. `handleViewSummary` spreads `undefined` there and leaves those fields undefined.
- A missing history slot written by a submission is filled with empty defaults. Sessions reachable through `Flow.Step` always have all three slots.
- `Export.SplitJoin`, `Export.ExportPracticesRoundTrip`: the round trip assumes that no practice name contains a semicolon. This holds for every name in the catalog, but it is taken as a hypothesis rather than proved over the string literals.
- `Export.ExportRow`: with fewer than three seasons `handleExportCSV` throws, and the model returns no row. Column values are modelled as text or hundredths cells, not as CSV text.
- `App.Register`, `App.Login`: a store whose user list cannot be parsed ("Registration failed"/"Login failed") is not modelled.

## Findings

| source | as written | input that shows it | evidently intended | confidence | as-written member | corrected member |
|---|---|---|---|---|---|---|
| src/App.js:428-432 | moving to the next season clears the selections and shock but not the likelihood answers | finish season 1 with at least one practice answered, then press Home on the season-2 intro; resuming the draft opens the likelihood screen with no practices selected | the answers are cleared with the selections, so the draft resumes on the season-2 intro | high, not executed | Session.SubmitLikelihoodAsWritten, Drafts.AnswersSurviveSeasonAdvance | Session.SubmitLikelihood, Drafts.ResumeInPlace |
| src/App.js:307-328 | a new lookup resets farmer, season, records and history but not the selections, shock or answers | save a simulation, look up another farmer, then press Home on the season-1 intro; resuming opens the likelihood screen | a lookup starts a clean session, so the draft resumes on the intro | high, not executed | Session.LookupAsWritten, App.StaleAnswersAfterSaveAndReturn | Session.Lookup, Drafts.ForwardDraftsResumeInPlace |
| src/App.js:186-191 | resuming takes a null shock to mean the season is not yet scored, but a scored season that drew no shock also has a null shock | a farmer at 50.00 ticks practices 1–7, no shock is drawn (51.87), Home is pressed on the weather result; resuming opens practice selection, and Continue with no shock gives 53.74 | a scored season resumes on the weather result, so resuming a draft cannot score it a second time (Back from the weather result followed by a new submission re-scores by a separate path, which this row does not cover) | high, not executed | Drafts.ResumeScreenAsWritten, Drafts.ResumedResubmitScoresTwice, App.LoadDraftAsWritten | Drafts.ResumeScreen, Drafts.ResumeInPlace, App.LoadDraft |

=== FILE: app.dfy ===
/** The application around a session: registered users, the signed-in user,
    saved simulations and the draft, with the browser's local storage as a
    store keyed by user name. */
module App {
  import opened Base
  import opened Farmers
  import opened Session
  import opened Flow
  import opened Drafts

  datatype User = User(username: string, password: string, name: string, organization: string, createdAt: string)

  datatype RegisterForm = RegisterForm(username: string, password: string, name: string, organization: string)

  /** The farmer part of a saved simulation, scores in hundredths. */
  datatype SimFarmer = SimFarmer(name: string, id: string, initial: int, final: int)

  datatype Simulation = Simulation(id: int, timestamp: string, farmer: SimFarmer, seasons: seq<SeasonRecord>)

  /** Local storage: the `users` list, `currentUser`, and per user name the
      `simulations_<name>` list and the `draft_<name>` entry. */
  datatype Store = Store(
    users: seq<User>,
    currentUser: Option<User>,
    simulations: map<string, seq<Simulation>>,
    drafts: map<string, Draft>)

  datatype App = App(
    session: Session,
    user: Option<User>,
    authError: string,
    sims: seq<Simulation>,
    draft: Option<Draft>,
    draftModal: bool,
    store: Store)

  const MissingFields: string := "Please fill in all required fields"
  const UsernameTaken: string := "Username already exists"
  const BadLogin: string := "Invalid username or password"

  predicate UniqueUsernames(users: seq<User>) {
    forall i, j :: 0 <= i < j < |users| ==> users[i].username != users[j].username
  }

  predicate HasUsername(users: seq<User>, username: string) {
    exists i :: 0 <= i < |users| && users[i].username == username
  }

  // ----------------------------------------------------------------- users

  /** Registration: rejected without touching the user list when a required
      field is empty or the user name is taken; otherwise the new user is
      appended, stored and signed in. */
  function Register(a: App, form: RegisterForm, createdAt: string): (r: App)
    ensures (form.username == "" || form.password == "" || form.name == "") ==>
      r == a.(authError := MissingFields)
    ensures form.username != "" && form.password != "" && form.name != "" &&
            HasUsername(a.store.users, form.username) ==>
      r == a.(authError := UsernameTaken)
    ensures form.username != "" && form.password != "" && form.name != "" &&
            !HasUsername(a.store.users, form.username) ==>
      var u := User(form.username, form.password, form.name, form.organization, createdAt);
      && r.store.users == a.store.users + [u]
      && r.user == Some(u) && r.store.currentUser == Some(u) && r.authError == ""
      && r.sims == a.sims && r.draft == a.draft && r.session == a.session
      && r.store.simulations == a.store.simulations && r.store.drafts == a.store.drafts
      && r.draftModal == a.draftModal
  {
    if form.username == "" || form.password == "" || form.name == "" then
      a.(authError := MissingFields)
    else if HasUsername(a.store.users, form.username) then
      a.(authError := UsernameTaken)
    else
      var u := User(form.username, form.password, form.name, form.organization, createdAt);
      a.(store := a.store.(users := a.store.users + [u], currentUser := Some(u)),
         user := Some(u), authError := "")
  }

  /** Registration never lets two users share a user name. */
  lemma RegisterKeepsUnique(a: App, form: RegisterForm, createdAt: string)
    requires UniqueUsernames(a.store.users)
    ensures UniqueUsernames(Register(a, form, createdAt).store.users)
    ensures |Register(a, form, createdAt).store.users| <= |a.store.users| + 1
  {
  }

  /** Logout: the user's stored draft is removed, the user is signed out,
      the dashboard is selected and the in-memory simulations are cleared.
      The rest of the session is left as it was. */
  function Logout(a: App): (r: App)
    ensures r.user == None && r.store.currentUser == None && r.draft == None
    ensures r.sims == [] && r.session == a.session.(screen := Dashboard)
    ensures a.user.Some? ==> a.user.value.username !in r.store.drafts
    ensures r.store.users == a.store.users && r.store.simulations == a.store.simulations
    ensures r.store.drafts == (if a.user.Some? then a.store.drafts - {a.user.value.username} else a.store.drafts)
    ensures r.draftModal == a.draftModal && r.authError == a.authError
  {
    var drafts := if a.user.Some? then a.store.drafts - {a.user.value.username} else a.store.drafts;
    a.(store := a.store.(drafts := drafts, currentUser := None), draft := None, user := None,
       sims := [], session := a.session.(screen := Dashboard))
  }

  /** Logging out and back in restores the saved simulations, and no draft is
      carried across. */
  lemma LogoutThenLogin(a: App, username: string, password: string)
    requires FindUser(a.store.users, username, password).Some?
    requires username in a.store.simulations
    ensures var r := Login(Logout(a), username, password);
      r.sims == a.store.simulations[username] && r.draft == None
  {
  }

  /** The first user with this name and password (`users.find`). */
  function FindUser(users: seq<User>, username: string, password: string): (r: Option<User>)
    ensures r.None? <==> forall i :: 0 <= i < |users| ==> users[i].username != username || users[i].password != password
    ensures r.Some? ==> r.value in users && r.value.username == username && r.value.password == password
    ensures r.Some? ==> exists k :: 0 <= k < |users| && users[k] == r.value &&
                                    forall i :: 0 <= i < k ==> users[i].username != username || users[i].password != password
  {
    if |users| == 0 then None
    else if users[0].username == username && users[0].password == password then Some(users[0])
    else
      var r := FindUser(users[1..], username, password);
      if r.Some? then
        ghost var k :| 0 <= k < |users[1..]| && users[1..][k] == r.value &&
          forall i :: 0 <= i < k ==> users[1..][i].username != username || users[1..][i].password != password;
        assert users[k + 1] == r.value;
        assert forall i :: 0 < i < k + 1 ==> users[i] == users[1..][i - 1];
        r
      else r
  }

  /** Login: on a match the user is signed in, their saved simulations (when
      any are stored) replace the in-memory list, and the draft is dropped;
      otherwise only the error is set. */
  function Login(a: App, username: string, password: string): (r: App)
    ensures FindUser(a.store.users, username, password).None? ==> r == a.(authError := BadLogin)
    ensures FindUser(a.store.users, username, password).Some? ==>
      var u := FindUser(a.store.users, username, password).value;
      && r.user == Some(u) && r.store.currentUser == Some(u) && r.authError == ""
      && r.draft == None && r.store.users == a.store.users
      && (u.username in a.store.simulations ==> r.sims == a.store.simulations[u.username])
      && (u.username !in a.store.simulations ==> r.sims == a.sims)
      && r.session == a.session && r.store.(currentUser := a.store.currentUser) == a.store
      && r.draftModal == a.draftModal
  {
    match FindUser(a.store.users, username, password)
    case None => a.(authError := BadLogin)
    case Some(u) =>
      var sims := if u.username in a.store.simulations then a.store.simulations[u.username] else a.sims;
      a.(user := Some(u), store := a.store.(currentUser := Some(u)), authError := "",
         sims := sims, draft := None)
  }

  /** A user who has just registered can log in with the same name and
      password, and gets that very account. */
  lemma RegisterThenLogin(a: App, form: RegisterForm, createdAt: string)
    requires UniqueUsernames(a.store.users)
    requires form.username != "" && form.password != "" && form.name != ""
    requires !HasUsername(a.store.users, form.username)
    ensures var b := Register(a, form, createdAt);
      Login(b, form.username, form.password).user == b.user
  {
    var b := Register(a, form, createdAt);
    var u := b.user.value;
    var found := FindUser(b.store.users, form.username, form.password);
    assert b.store.users[|b.store.users| - 1] == u;
    assert found.Some?;
  }

  // ---------------------------------------------------------------- drafts

  /** Saving a draft: with a signed-in user the snapshot is stored under the
      user's name and kept in memory; without one the storage write throws,
      the error is swallowed, and nothing changes. */
  function SaveDraft(a: App, timestamp: string): (r: App)
    ensures a.user.None? ==> r == a
    ensures a.user.Some? ==>
      var d := Snapshot(a.session, timestamp);
      && r.draft == Some(d)
      && a.user.value.username in r.store.drafts && r.store.drafts[a.user.value.username] == d
      && r.session == a.session && r.sims == a.sims && r.store.users == a.store.users
      && r.store == a.store.(drafts := a.store.drafts[a.user.value.username := d])
    ensures r.user == a.user && r.authError == a.authError && r.draftModal == a.draftModal
  {
    match a.user
    case None => a
    case Some(u) =>
      var d := Snapshot(a.session, timestamp);
      a.(store := a.store.(drafts := a.store.drafts[u.username := d]), draft := Some(d))
  }

  /** Resuming the in-memory draft with the resume order `loadDraft` is
      written with. It differs from the corrected resume only in the screen
      it opens. */
  function LoadDraftAsWritten(a: App): (r: App)
    ensures a.draft.None? ==> r == a
    ensures a.draft.Some? ==>
      r.session == RestoreAsWritten(a.session, a.draft.value) && !r.draftModal &&
      r.session.screen == ResumeScreenAsWritten(a.draft.value)
    ensures r.(session := LoadDraft(a).session) == LoadDraft(a)
    ensures r.session.(screen := LoadDraft(a).session.screen) == LoadDraft(a).session
  {
    match a.draft
    case None => a
    case Some(d) => a.(session := RestoreAsWritten(a.session, d), draftModal := false)
  }

  /** Resuming the in-memory draft, if there is one, with the corrected
      resume order. */
  function LoadDraft(a: App): (r: App)
    ensures a.draft.None? ==> r == a
    ensures a.draft.Some? ==>
      r.session == Restore(a.session, a.draft.value) && !r.draftModal &&
      r.session.screen == ResumeScreen(a.draft.value)
    ensures r.(session := a.session, draftModal := a.draftModal) == a
  {
    match a.draft
    case None => a
    case Some(d) => a.(session := Restore(a.session, d), draftModal := false)
  }

  /** Deleting the draft from memory and, for a signed-in user, from storage. */
  function DiscardDraft(a: App): (r: App)
    ensures r.draft == None && !r.draftModal
    ensures a.user.Some? ==> a.user.value.username !in r.store.drafts
    ensures a.user.None? ==> r.store == a.store
    ensures a.user.Some? ==> r.store == a.store.(drafts := a.store.drafts - {a.user.value.username})
    ensures r.session == a.session
    ensures r.user == a.user && r.sims == a.sims && r.authError == a.authError
  {
    var store := if a.user.Some? then a.store.(drafts := a.store.drafts - {a.user.value.username}) else a.store;
    a.(store := store, draft := None, draftModal := false)
  }

  /** "Begin Simulation": with a draft pending only the (unrendered) draft
      dialog flag is raised; otherwise the lookup screen opens. */
  function BeginSimulation(a: App): (r: App)
    ensures a.draft.Some? ==> r == a.(draftModal := true)
    ensures a.draft.None? ==> r == a.(session := a.session.(screen := FarmerLookup))
  {
    if a.draft.Some? then a.(draftModal := true)
    else a.(session := a.session.(screen := FarmerLookup))
  }

  /** "Start new" from the draft dialog. The dialog flag is raised but the
      dialog itself is never rendered, so no control in the interface
      reaches this handler; it is modelled as written all the same. The
      draft is deleted from memory
      and, for a signed-in user, from storage; then the lookup opens. The
      rest of the session is left as it was. */
  function StartNewFromModal(a: App): (r: App)
    ensures r.draft == None && !r.draftModal && r.session.screen == FarmerLookup
    ensures a.user.Some? ==>
      var name := a.user.value.username;
      && name !in r.store.drafts
      && (forall other :: other != name ==> (other in r.store.drafts <==> other in a.store.drafts))
      && r.store.(drafts := a.store.drafts) == a.store
    ensures a.user.None? ==> r.store == a.store
    ensures r.session.(screen := a.session.screen) == a.session
    ensures r.user == a.user && r.sims == a.sims && r.authError == a.authError
  {
    var b := DiscardDraft(a);
    b.(session := b.session.(screen := FarmerLookup))
  }

  /** Whether leaving for the dashboard happens in the middle of a session. */
  predicate MidSession(s: Session) {
    s.farmer.Some? && s.screen != Dashboard && s.screen != FarmerLookup
  }

  /** The Home (and logo) control: saves a draft when leaving mid-session,
      then shows the dashboard. */
  function HomeClick(a: App, timestamp: string): (r: App)
    ensures r.session == a.session.(screen := Dashboard)
    ensures MidSession(a.session) && a.user.Some? ==>
      && r.draft == Some(Snapshot(a.session, timestamp))
      && r.store == a.store.(drafts := a.store.drafts[a.user.value.username := Snapshot(a.session, timestamp)])
    ensures r.user == a.user && r.sims == a.sims && r.authError == a.authError
    ensures a.user.None? ==> r == a.(session := a.session.(screen := Dashboard))
    ensures !MidSession(a.session) ==> r == a.(session := a.session.(screen := Dashboard))
  {
    var b := if MidSession(a.session) then SaveDraft(a, timestamp) else a;
    b.(session := b.session.(screen := Dashboard))
  }

  /** Leaving mid-session through Home and resuming the draft gives back the
      session's saved fields. */
  lemma HomeThenResume(a: App, timestamp: string)
    requires MidSession(a.session) && a.user.Some?
    ensures var r := LoadDraft(HomeClick(a, timestamp)).session;
      && r.farmer == a.session.farmer && r.season == a.session.season
      && r.selected == a.session.selected && r.shock == a.session.shock
      && r.records == a.session.records && r.answers == a.session.answers
      && r.history == a.session.history
  {
  }

  // ----------------------------------------------------------- simulations

  /** Saving a finished simulation: it is appended to the in-memory list and,
      for a signed-in user, stored under their name with the draft removed.
      Without a user the list is appended but the storage write throws and
      the draft stays. */
  function SaveSimulation(a: App, farmer: SimFarmer, seasons: seq<SeasonRecord>, now: int, timestamp: string): (r: App)
    ensures r.sims == a.sims + [Simulation(now, timestamp, farmer, seasons)]
    ensures a.user.Some? ==>
      var name := a.user.value.username;
      && name in r.store.simulations && r.store.simulations[name] == r.sims
      && name !in r.store.drafts && r.draft == None
    ensures a.user.Some? ==>
      var name := a.user.value.username;
      r.store == a.store.(simulations := a.store.simulations[name := r.sims], drafts := a.store.drafts - {name})
    ensures a.user.None? ==> r.store == a.store && r.draft == a.draft
    ensures r.user == a.user && r.session == a.session
  {
    var sims := a.sims + [Simulation(now, timestamp, farmer, seasons)];
    match a.user
    case None => a.(sims := sims)
    case Some(u) =>
      a.(sims := sims,
         store := a.store.(simulations := a.store.simulations[u.username := sims],
                           drafts := a.store.drafts - {u.username}),
         draft := None)
  }

  /** "Save & Return": saves the session as a simulation (stored, with the
      draft removed, for a signed-in user) and resets the session to the
      dashboard. The answers, shock and history are not reset. */
  function SaveAndReturn(a: App, now: int, timestamp: string): (r: App)
    requires a.session.farmer.Some?
    ensures var f := a.session.farmer.value;
      |r.sims| == |a.sims| + 1 && r.sims[..|a.sims|] == a.sims &&
      r.sims[|a.sims|] == Simulation(now, timestamp,
        SimFarmer(f.row.name, f.row.farmerId, f.initial, f.current), a.session.records)
    ensures a.user.Some? ==>
      var name := a.user.value.username;
      && name in r.store.simulations && r.store.simulations[name] == r.sims
      && name !in r.store.drafts && r.draft == None
    ensures a.user.Some? ==>
      var name := a.user.value.username;
      r.store == a.store.(simulations := a.store.simulations[name := r.sims], drafts := a.store.drafts - {name})
    ensures a.user.None? ==> r.store == a.store && r.draft == a.draft
    ensures r.user == a.user && r.store.users == a.store.users
    ensures r.session.screen == Dashboard && r.session.farmer == None
    ensures r.session.records == [] && r.session.selected == [] && r.session.season == 1
    ensures r.session.answers == a.session.answers && r.session.shock == a.session.shock
    ensures r.session.history == a.session.history && r.session.farmers == a.session.farmers
    ensures r.session.(screen := a.session.screen, farmer := a.session.farmer, records := a.session.records,
                       selected := a.session.selected, season := a.session.season) == a.session
  {
    var f := a.session.farmer.value;
    var b := SaveSimulation(a, SimFarmer(f.row.name, f.row.farmerId, f.initial, f.current),
                            a.session.records, now, timestamp);
    b.(session := b.session.(screen := Dashboard, farmer := None, records := [], selected := [], season := 1))
  }

  /** Saving a simulation clears the draft, so with a signed-in user the next
      "Begin Simulation" goes straight to the lookup screen. */
  lemma SaveThenBegin(a: App, now: int, timestamp: string)
    requires a.session.farmer.Some? && a.user.Some?
    ensures BeginSimulation(SaveAndReturn(a, now, timestamp)).session.screen == FarmerLookup
  {
  }

  /** After "Start new" the next "Begin Simulation" opens the lookup screen
      instead of the draft dialog. Like "Start new" itself, this path is
      unreachable from the interface, since the dialog is never rendered. */
  lemma StartNewThenBegin(a: App)
    ensures var b := BeginSimulation(StartNewFromModal(a));
      b.session.screen == FarmerLookup && !b.draftModal
  {
  }

  /** The stale answers end to end, as written: a saved simulation that had
      answers, "Begin Simulation", a successful lookup of the next farmer,
      then Home on the first intro screen; resuming that draft as `loadDraft`
      is written opens the likelihood screen. With the corrected lookup it
      opens the intro, under either resume order. */
  lemma StaleAnswersAfterSaveAndReturn(a: App, now: int, t1: string, t2: string)
    requires a.session.farmer.Some? && a.user.Some? && |a.session.answers| > 0
    requires FindFarmer(a.session.farmers, a.session.typed).Some?
    ensures var b := BeginSimulation(SaveAndReturn(a, now, t1));
      && b.session.screen == FarmerLookup
      && var asWritten := b.(session := LookupAsWritten(b.session));
      && var corrected := b.(session := Lookup(b.session));
      && asWritten.session.screen == SeasonIntro && corrected.session.screen == SeasonIntro
      && LoadDraftAsWritten(HomeClick(asWritten, t2)).session.screen == Likelihood
      && LoadDraftAsWritten(HomeClick(corrected, t2)).session.screen == SeasonIntro
      && LoadDraft(HomeClick(corrected, t2)).session.screen == SeasonIntro
  {
    var saved := SaveAndReturn(a, now, t1);
    assert saved.draft == None && saved.session.answers == a.session.answers;
    assert saved.session.farmers == a.session.farmers && saved.session.typed == a.session.typed;
    var b := BeginSimulation(saved);
    assert b.session == saved.session.(screen := FarmerLookup);
    var w := LookupAsWritten(b.session);
    assert w.screen == SeasonIntro && w.answers == a.session.answers && w.records == [];
    var c := Lookup(b.session);
    assert c.screen == SeasonIntro && c.answers == map[] && c.records == [];
    var hw := HomeClick(b.(session := w), t2);
    assert hw.draft == Some(Snapshot(w, t2));
    var hc := HomeClick(b.(session := c), t2);
    assert hc.draft == Some(Snapshot(c, t2));
  }

  // ---------------------------------------------------- viewing a summary

  /** Opening a saved simulation's summary from the dashboard: the farmer is
      rebuilt from the dataset row with the simulation's id and its two
      scores, the records become the simulation's seasons, and the summary
      opens. Season, selections, answers and history are left as they are.
      An id missing from the dataset gives a row with empty id and name. */
  function ViewSummary(a: App, sim: Simulation): (r: App)
    ensures var found := FindFarmer(a.session.farmers, sim.farmer.id);
      && r.session.farmer.Some?
      && r.session.farmer.value.initial == sim.farmer.initial
      && r.session.farmer.value.current == sim.farmer.final
      && (found.Some? ==> r.session.farmer.value.row == found.value)
      && (found.None? ==> r.session.farmer.value.row == FarmerRow("", "", 0))
    ensures r.session.records == sim.seasons && r.session.screen == Summary
    ensures r.session.history == a.session.history && r.session.season == a.session.season
    ensures r.session.selected == a.session.selected && r.session.answers == a.session.answers
    ensures r.(session := a.session) == a
  {
    var row := match FindFarmer(a.session.farmers, sim.farmer.id)
      case Some(f) => f
      case None => FarmerRow("", "", 0);
    a.(session := a.session.(farmer := Some(Farmer(row, sim.farmer.initial, sim.farmer.final)),
                             records := sim.seasons, screen := Summary))
  }

  /** Viewing a saved summary in a session that never looked a farmer up
      (right after logging in the history is empty) offers Back on a summary
      whose third history slot does not exist: the session is not valid,
      Back's precondition fails (`handleBackButton` reads
      `sessionHistory.season3.practices` and throws), and Home saves this
      state as a draft. */
  lemma ViewSummaryWithoutHistory(a: App, sim: Simulation, timestamp: string)
    requires 3 !in a.session.history
    ensures var r := ViewSummary(a, sim);
      && Enabled(r.session, GoBack)
      && !(3 in r.session.history)
      && !Valid(r.session)
      && MidSession(r.session)
      && (a.user.Some? ==> HomeClick(r, timestamp).draft == Some(Snapshot(r.session, timestamp)))
  {
  }

  /** After logging in, the session's history is still the empty one it
      started with, so viewing any saved summary reaches that state. */
  lemma ViewSummaryAfterLogin(farmers: seq<FarmerRow>, a: App, sim: Simulation, username: string, password: string)
    requires a.session == Initial(farmers)
    ensures 3 !in Login(a, username, password).session.history
    ensures !Valid(ViewSummary(Login(a, username, password), sim).session)
  {
    ViewSummaryWithoutHistory(Login(a, username, password), sim, "");
  }
}

=== FILE: base.dfy ===
/** Small shared vocabulary: an optional value and the list helpers the
    session handlers use (`includes`, `filter(x => x !== id)`). */
module Base {

  datatype Option<+T> = None | Some(value: T)

  /** No element occurs twice. */
  predicate NoDup<T(==)>(s: seq<T>) {
    forall i, j :: 0 <= i < j < |s| ==> s[i] != s[j]
  }

  /** Every element except `x`, in the original order (JavaScript
      `s.filter(y => y !== x)`). */
  function Remove(s: seq<int>, x: int): (r: seq<int>)
    ensures x !in r
    ensures forall y :: y in r <==> y in s && y != x
    ensures |r| <= |s|
    ensures x !in s ==> r == s
    ensures |s| == 1 ==> r == (if s[0] == x then [] else s)
  {
    if |s| == 0 then []
    else if s[0] == x then Remove(s[1..], x)
    else [s[0]] + Remove(s[1..], x)
  }

  /** Removing works piece by piece: what is kept of `a + b` is what is kept
      of `a` followed by what is kept of `b`, so the kept elements stay in
      their original order. */
  lemma {:induction false} RemoveConcat(a: seq<int>, b: seq<int>, x: int)
    ensures Remove(a + b, x) == Remove(a, x) + Remove(b, x)
  {
    if |a| == 0 {
      assert a + b == b;
    } else {
      assert (a + b)[1..] == a[1..] + b;
      RemoveConcat(a[1..], b, x);
      if a[0] != x {
        assert [a[0]] + (Remove(a[1..], x) + Remove(b, x)) == ([a[0]] + Remove(a[1..], x)) + Remove(b, x);
      }
    }
  }

  /** Removing `x` from `s + [x]` gives back `s` when `x` was not in `s`. */
  lemma {:induction false} RemoveAppended(s: seq<int>, x: int)
    requires x !in s
    ensures Remove(s + [x], x) == s
  {
    if |s| == 0 {
      assert s + [x] == [x];
    } else {
      assert (s + [x])[1..] == s[1..] + [x];
      RemoveAppended(s[1..], x);
    }
  }

  /** Removing an element keeps a duplicate-free list duplicate-free and
      removes exactly one occurrence. */
  lemma {:induction false} RemoveNoDup(s: seq<int>, x: int)
    requires NoDup(s)
    ensures NoDup(Remove(s, x))
    ensures x in s ==> |Remove(s, x)| == |s| - 1
  {
    if |s| != 0 {
      assert NoDup(s[1..]);
      RemoveNoDup(s[1..], x);
      if s[0] == x {
        assert x !in s[1..];
      } else {
        assert s[0] !in s[1..];
        var r := Remove(s[1..], x);
        assert s[0] !in r;
        assert forall i :: 0 < i < |[s[0]] + r| ==> ([s[0]] + r)[i] == r[i - 1];
      }
    }
  }

  /** Two lists with the same elements still have the same elements after
      dropping the head of one and a matching element of the other. */
  lemma MultisetRemoveAt<T>(a: seq<T>, b: seq<T>, i: int)
    requires |a| > 0 && 0 <= i < |b| && b[i] == a[0]
    requires multiset(a) == multiset(b)
    ensures multiset(a[1..]) == multiset(b[..i] + b[i + 1..])
  {
    var rest := b[..i] + b[i + 1..];
    assert b == b[..i] + [b[i]] + b[i + 1..];
    var tailA := multiset(a[1..]);
    var restB := multiset(rest);
    var v := a[0];
    assert multiset(b) == restB + multiset{v};
    assert a == [a[0]] + a[1..];
    assert multiset(a) == tailA + multiset{v};
    forall x
      ensures tailA[x] == restB[x]
    {
      assert (tailA + multiset{v})[x] == (restB + multiset{v})[x];
    }
  }

  /** In a duplicate-free list, removing a present element takes exactly one
      copy of it out of the multiset of elements. */
  lemma {:induction false} RemoveMultiset(s: seq<int>, x: int)
    requires NoDup(s) && x in s
    ensures multiset(Remove(s, x)) + multiset{x} == multiset(s)
  {
    assert s == [s[0]] + s[1..];
    assert NoDup(s[1..]);
    if s[0] == x {
      assert x !in s[1..];
      assert Remove(s[1..], x) == s[1..];
    } else {
      RemoveMultiset(s[1..], x);
    }
  }
}

=== FILE: catalog.dfy ===
/** The two static catalogs of the season simulation: the 24 agricultural
    practices a farmer may adopt, each with a scoring weight, and the four
    weather shocks, each with a negative impact fraction.

    Weights and impacts are integers in hundredths: the practice weight 0.4
    is 40 and the Flood impact -0.20 is -20. */
module Catalog {
  import opened Base

  datatype Practice = Practice(id: int, name: string, weight: int)

  datatype Shock = Shock(name: string, impact: int)

  /** Practice names, in id order (id 1 first). */
  const PracticeNames: seq<string> := [
    "Buy certified paddy seeds",
    "Use pesticides/fungicides (only when needed, as per IPM advice)",
    "Balanced fertilizer use (small, need-based doses instead of excess)",
    "Zinc sulfate for rice (common deficiency, low cost, high yield impact)",
    "IPM - Pheromone/sticky traps for pest control (low cost)",
    "IPM- neem sprays",
    "Apply organic manure (farmyard manure, cow dung, vermicompost, dhaincha green manure)",
    "Regular soil and water testing (often free at KVKs)",
    "Proper bund and drainage maintenance using family/community labor",
    "Live fencing (bamboo, thorn bushes) to prevent animals from entering fields",
    "Use free govt. apps for prices and weather (Kisan Suvidha, mKisan)",
    "Consult with KVK experts",
    "Mulching (paddy straw mulch)",
    "Lease small extra plots of land seasonally",
    "Convert fallow/waste land into cultivation (if available)",
    "Tube well or small borewell",
    "field channels",
    "Rainwater harvesting tanks or ponds (low-cost models, often under MGNREGA or govt. subsidy)",
    "Solar/diesel pumps (shared among farmer groups)",
    "Simple drainage channels (community effort with small cost)",
    "Crop insurance",
    "Buying improved/hybrid paddy seed",
    "Solar-powered irrigation pumps",
    "paddy transplanters, combine harvesters, tractors"
  ]

  /** Practice weights in hundredths, in id order. */
  const PracticeWeights: seq<int> := [40, 20, 40, 40, 20, 20, 7, 7, 15, 13, 13, 20, 20, 5, 5, 15, 15, 15, 15, 15, 13, 40, 15, 40]

  /** The display name of a known practice. */
  function Name(id: int): string
    requires Known(id)
  {
    PracticeNames[id - 1]
  }

  /** The weight of a known practice, in hundredths. */
  function Weight(id: int): (w: int)
    requires Known(id)
    ensures 5 <= w <= 40
  {
    PracticeWeights[id - 1]
  }

  /** Row i of the catalog: the practice with id i + 1. */
  function CatalogRow(i: nat): Practice
    requires i < 24
  {
    Practice(i + 1, Name(i + 1), Weight(i + 1))
  }

  /** The practice catalog, in id order. */
  const Practices: seq<Practice> := [
    CatalogRow(0),
    CatalogRow(1),
    CatalogRow(2),
    CatalogRow(3),
    CatalogRow(4),
    CatalogRow(5),
    CatalogRow(6),
    CatalogRow(7),
    CatalogRow(8),
    CatalogRow(9),
    CatalogRow(10),
    CatalogRow(11),
    CatalogRow(12),
    CatalogRow(13),
    CatalogRow(14),
    CatalogRow(15),
    CatalogRow(16),
    CatalogRow(17),
    CatalogRow(18),
    CatalogRow(19),
    CatalogRow(20),
    CatalogRow(21),
    CatalogRow(22),
    CatalogRow(23)
  ]

  const Shocks: seq<Shock> := [
    Shock("Drought", -15),
    Shock("Flood", -20),
    Shock("Heavy Rain", -10),
    Shock("Pest and Disease", -12)
  ]

  /** The first practice in `ps` carrying `id` (JavaScript `Array.find`). */
  function FindIn(ps: seq<Practice>, id: int): (r: Option<Practice>)
    ensures r.None? <==> forall i :: 0 <= i < |ps| ==> ps[i].id != id
    ensures r.Some? ==> r.value.id == id && r.value in ps
    ensures r.Some? ==> exists k :: 0 <= k < |ps| && ps[k] == r.value &&
                                    forall i :: 0 <= i < k ==> ps[i].id != id
  {
    if |ps| == 0 then None
    else if ps[0].id == id then Some(ps[0])
    else
      var r := FindIn(ps[1..], id);
      if r.Some? then
        ghost var k :| 0 <= k < |ps[1..]| && ps[1..][k] == r.value &&
                       forall i :: 0 <= i < k ==> ps[1..][i].id != id;
        assert ps[k + 1] == r.value;
        r
      else r
  }

  /** A practice id the catalog knows; the selection screen only offers these. */
  predicate Known(id: int) {
    1 <= id <= 24
  }

  predicate AllKnown(ids: seq<int>) {
    forall i :: 0 <= i < |ids| ==> Known(ids[i])
  }

  /** The catalog is numbered 1..24 in order. */
  lemma PracticesShape()
    ensures |Practices| == 24
    ensures forall i :: 0 <= i < 24 ==> Practices[i].id == i + 1
    ensures forall i :: 0 <= i < 24 ==> Practices[i] == CatalogRow(i)
  {
  }

  /** Every shock lowers the score by between 10 and 20 per cent. */
  lemma ShocksShape()
    ensures |Shocks| == 4
    ensures forall i :: 0 <= i < 4 ==> -20 <= Shocks[i].impact <= -10
    ensures forall i, j :: 0 <= i < j < 4 ==> Shocks[i].name != Shocks[j].name
  {
  }

  /** In a list numbered 1, 2, 3, ... the first row with an id is the row
      at that position, and ids outside the numbering are not found. */
  lemma FindInNumbered(ps: seq<Practice>, id: int)
    requires forall i :: 0 <= i < |ps| ==> ps[i].id == i + 1
    ensures FindIn(ps, id).Some? <==> 1 <= id <= |ps|
    ensures 1 <= id <= |ps| ==> FindIn(ps, id) == Some(ps[id - 1])
  {
    if 1 <= id <= |ps| {
      assert ps[id - 1].id == id;
      var r := FindIn(ps, id);
      var k :| 0 <= k < |ps| && ps[k] == r.value && forall i :: 0 <= i < k ==> ps[i].id != id;
      assert ps[k].id == k + 1;
    }
  }

  /** Looking a practice up by id (`practices.find(p => p.id === id)`)
      succeeds exactly for the known ids and returns that id's name and
      weight. */
  lemma FindPracticeById(id: int)
    ensures FindIn(Practices, id).Some? <==> Known(id)
    ensures Known(id) ==> FindIn(Practices, id) == Some(Practice(id, Name(id), Weight(id)))
  {
    PracticesShape();
    FindInNumbered(Practices, id);
    if Known(id) {
      assert Practices[id - 1] == CatalogRow(id - 1);
    }
  }
}

=== FILE: drafts.dfy ===
/** Drafts: a snapshot of an unfinished session that the dashboard can
    resume, re-entering the screen chosen from which fields are filled in. */
module Drafts {
  import opened Base
  import opened Catalog
  import opened Scoring
  import opened Farmers
  import opened Session
  import opened Flow

  /** The seven session fields a draft keeps, and when it was taken. */
  datatype Draft = Draft(
    farmer: Option<Farmer>,
    season: int,
    selected: seq<int>,
    shock: Option<Shock>,
    records: seq<SeasonRecord>,
    answers: map<int, Answer>,
    history: map<int, HistorySlot>,
    timestamp: string)

  function Snapshot(s: Session, timestamp: string): (d: Draft)
    ensures d.timestamp == timestamp
  {
    Draft(s.farmer, s.season, s.selected, s.shock, s.records, s.answers, s.history, timestamp)
  }

  /** The screen a resumed draft opens on, as `loadDraft` chooses it: the
      first of summary (three records), likelihood (some answer), weather
      result (a shock), practice selection (some practice) and season intro
      that applies. A season that drew no shock is indistinguishable here
      from one not yet scored. */
  function ResumeScreenAsWritten(d: Draft): (screen: Screen)
    ensures screen.Summary? <==> |d.records| == 3
    ensures screen.Likelihood? <==> |d.records| != 3 && |d.answers| > 0
    ensures screen.WeatherResult? <==> |d.records| != 3 && |d.answers| == 0 && d.shock.Some?
    ensures screen.PracticeSelection? <==>
      |d.records| != 3 && |d.answers| == 0 && d.shock.None? && |d.selected| > 0
    ensures screen.SeasonIntro? <==>
      |d.records| != 3 && |d.answers| == 0 && d.shock.None? && |d.selected| == 0
    ensures InSimulation(screen)
  {
    if |d.records| == 3 then Summary
    else if |d.answers| > 0 then Likelihood
    else if d.shock.Some? then WeatherResult
    else if |d.selected| > 0 then PracticeSelection
    else SeasonIntro
  }

  /** Whether the draft's current season has already been scored: its
      history slot holds the submitted practices. */
  predicate Scored(d: Draft) {
    d.season in d.history && |d.history[d.season].practices| > 0
  }

  /** The resume screen with the correction this model uses: a season that
      has been scored resumes on the weather result even when it drew no
      shock. */
  function ResumeScreen(d: Draft): (screen: Screen)
    ensures screen.Summary? <==> |d.records| == 3
    ensures screen.Likelihood? <==> |d.records| != 3 && |d.answers| > 0
    ensures screen.WeatherResult? <==>
      |d.records| != 3 && |d.answers| == 0 && (d.shock.Some? || Scored(d))
    ensures screen.PracticeSelection? <==>
      |d.records| != 3 && |d.answers| == 0 && d.shock.None? && !Scored(d) && |d.selected| > 0
    ensures screen.SeasonIntro? <==>
      |d.records| != 3 && |d.answers| == 0 && d.shock.None? && !Scored(d) && |d.selected| == 0
    ensures !Scored(d) ==> screen == ResumeScreenAsWritten(d)
    ensures InSimulation(screen)
  {
    if |d.records| == 3 then Summary
    else if |d.answers| > 0 then Likelihood
    else if d.shock.Some? || Scored(d) then WeatherResult
    else if |d.selected| > 0 then PracticeSelection
    else SeasonIntro
  }

  /** Resuming a draft: the seven fields come back and the screen is chosen
      from them by the corrected order; the lookup fields are left as they
      are. */
  function Restore(s: Session, d: Draft): (r: Session)
    ensures r.screen == ResumeScreen(d)
    ensures r.farmer == d.farmer && r.season == d.season && r.selected == d.selected
    ensures r.shock == d.shock && r.records == d.records && r.answers == d.answers
    ensures r.history == d.history
    ensures r.farmers == s.farmers && r.typed == s.typed && r.error == s.error
    ensures r.matches == s.matches && r.dropdown == s.dropdown
  {
    s.(farmer := d.farmer, season := d.season, selected := d.selected, shock := d.shock,
       records := d.records, answers := d.answers, history := d.history,
       screen := ResumeScreen(d))
  }

  /** Resuming a snapshot gives back every saved field of the session it was
      taken from, whatever happened to the session in between. */
  lemma RestoreSnapshot(s: Session, later: Session, timestamp: string)
    ensures var r := Restore(later, Snapshot(s, timestamp));
      && r.farmer == s.farmer && r.season == s.season && r.selected == s.selected
      && r.shock == s.shock && r.records == s.records && r.answers == s.answers
      && r.history == s.history
  {
  }

  /** A snapshot of a valid session resumes into a valid session. */
  lemma RestoreKeepsValid(s: Session, later: Session, timestamp: string)
    requires Valid(s) && InSimulation(s.screen)
    ensures Valid(Restore(later, Snapshot(s, timestamp)))
  {
  }

  /** Screens of a season in the order a forward walk visits them. */
  function Rank(screen: Screen): int {
    match screen
    case SeasonIntro => 0
    case PracticeSelection => 1
    case WeatherResult => 2
    case Likelihood => 3
    case Summary => 4
    case _ => -1
  }

  lemma NonEmptyMap(m: map<int, Answer>, k: int)
    requires k in m
    ensures |m| > 0
  {
    assert k in m.Keys;
  }

  // ------------------------------------ handlers and resume as written

  /** As `handleLikelihoodSubmit` is written, the answers survive the move
      to the next season: a draft taken on the next season's intro screen
      resumes, by `loadDraft`'s own order, on the likelihood screen with no
      practices selected, instead of on the intro. The corrected resume
      order alone does not help; the corrected submit does. */
  lemma AnswersSurviveSeasonAdvance(s: Session, timestamp: string)
    requires Valid(s) && ForwardInv(s) && s.screen == Likelihood && s.season < 3
    requires AllAnswered(s.selected, s.answers) && |s.selected| > 0
    ensures var t := SubmitLikelihoodAsWritten(s);
      && t.screen == SeasonIntro && t.selected == []
      && ResumeScreenAsWritten(Snapshot(t, timestamp)) == Likelihood
      && Rank(ResumeScreenAsWritten(Snapshot(t, timestamp))) > Rank(t.screen)
      && ResumeScreen(Snapshot(t, timestamp)) == Likelihood
    ensures ResumeScreenAsWritten(Snapshot(SubmitLikelihood(s), timestamp)) == SeasonIntro
  {
    NonEmptyMap(s.answers, s.selected[0]);
  }

  /** As `handleFarmerLookup` is written, a new lookup keeps the previous
      session's answers: a draft taken on the new session's first intro
      screen resumes, by `loadDraft`'s own order, on the likelihood screen.
      After the corrected lookup it resumes on the intro. */
  lemma AnswersSurviveLookup(s: Session, timestamp: string)
    requires FindFarmer(s.farmers, s.typed).Some? && |s.answers| > 0
    ensures var t := LookupAsWritten(s);
      && t.screen == SeasonIntro && t.records == []
      && ResumeScreenAsWritten(Snapshot(t, timestamp)) == Likelihood
    ensures ResumeScreenAsWritten(Snapshot(Lookup(s), timestamp)) == SeasonIntro
  {
  }

  // ----------------------------------------------------- corrected model

  /** A forward walk under the corrected handlers: on the intro nothing of
      the season is filled in yet, on practice selection no shock and no
      answers, on the weather result no answers. */
  predicate StageInv(s: Session) {
    && ForwardInv(s)
    && (s.screen == SeasonIntro ==> s.selected == [] && s.shock.None? && s.answers == map[])
    && (s.screen == PracticeSelection ==> s.shock.None? && s.answers == map[])
    && (s.screen == WeatherResult ==> s.answers == map[])
    && s.season in s.history
    && ((s.screen == SeasonIntro || s.screen == PracticeSelection) ==> s.history[s.season].practices == [])
    && ((s.screen == WeatherResult || s.screen == Likelihood) ==>
          s.history[s.season].practices == s.selected && |s.selected| >= MinSelected)
    && (forall k :: s.season < k <= 3 ==> k in s.history && s.history[k].practices == [])
  }

  /** A successful (corrected) lookup starts a clean walk. */
  lemma LookupStartsClean(s: Session)
    requires Valid(s) && s.screen == FarmerLookup && FindFarmer(s.farmers, s.typed).Some?
    ensures Enabled(s, LookUp) && StageInv(Step(Corrected, s, LookUp))
  {
  }

  lemma StepKeepsStageInv(s: Session, e: Event)
    requires Valid(s) && Enabled(s, e) && StageInv(s) && !e.GoBack?
    ensures StageInv(Step(Corrected, s, e))
  {
    StepKeepsForwardInv(Corrected, s, e);
  }

  lemma {:induction false} ForwardRunKeepsStageInv(s: Session, evs: seq<Event>)
    requires Valid(s) && ValidRun(Corrected, s, evs) && StageInv(s) && NoBack(evs)
    ensures StageInv(Run(Corrected, s, evs))
    decreases |evs|
  {
    if |evs| > 0 {
      StepKeepsValid(Corrected, s, evs[0]);
      StepKeepsStageInv(s, evs[0]);
      assert NoBack(evs[1..]) by {
        forall i | 0 <= i < |evs[1..]| ensures !evs[1..][i].GoBack? {
          assert evs[1..][i] == evs[i + 1];
        }
      }
      ForwardRunKeepsStageInv(Step(Corrected, s, evs[0]), evs[1..]);
    }
  }

  /** On a clean forward walk a draft never resumes ahead of where it was
      taken; on the intro and on the summary it resumes exactly there. */
  lemma ResumeNotAhead(s: Session, timestamp: string)
    requires StageInv(s)
    ensures Rank(ResumeScreen(Snapshot(s, timestamp))) <= Rank(s.screen)
    ensures s.screen == SeasonIntro ==> ResumeScreen(Snapshot(s, timestamp)) == SeasonIntro
    ensures s.screen == Summary ==> ResumeScreen(Snapshot(s, timestamp)) == Summary
  {
    if s.screen != Summary {
      assert |s.records| != 3;
    }
    if s.answers == map[] {
      assert |s.answers| == 0;
    }
  }

  /** Where a draft taken at `taken` may reopen: the same screen, or the
      screen just before it when nothing on `taken` has been filled in yet
      (practice selection with nothing ticked, likelihood with no answer). */
  predicate InPlace(taken: Screen, back: Screen, ticked: int, answered: int) {
    || back == taken
    || (taken == PracticeSelection && ticked == 0 && back == SeasonIntro)
    || (taken == Likelihood && answered == 0 && back == WeatherResult)
  }

  /** On a clean forward walk a draft resumes where it was taken, or on the
      screen just before it when nothing there was filled in yet. */
  lemma ResumeInPlace(s: Session, timestamp: string)
    requires StageInv(s)
    ensures InPlace(s.screen, ResumeScreen(Snapshot(s, timestamp)), |s.selected|, |s.answers|)
  {
    ResumeNotAhead(s, timestamp);
    if s.screen != Summary {
      assert |s.records| != 3;
    }
    if s.answers == map[] {
      assert |s.answers| == 0;
    }
  }

  /** Every draft taken along a forward walk after a successful lookup
      resumes where it was taken, or just before when nothing there was
      filled in yet. */
  lemma ForwardDraftsResumeInPlace(s: Session, evs: seq<Event>, timestamp: string)
    requires Valid(s) && s.screen == FarmerLookup && FindFarmer(s.farmers, s.typed).Some?
    requires Enabled(s, LookUp) && Valid(Step(Corrected, s, LookUp))
    requires ValidRun(Corrected, Step(Corrected, s, LookUp), evs) && NoBack(evs)
    ensures var r := Run(Corrected, Step(Corrected, s, LookUp), evs);
      InPlace(r.screen, ResumeScreen(Snapshot(r, timestamp)), |r.selected|, |r.answers|)
  {
    LookupStartsClean(s);
    ForwardRunKeepsStageInv(Step(Corrected, s, LookUp), evs);
    ResumeInPlace(Run(Corrected, Step(Corrected, s, LookUp), evs), timestamp);
  }

  // ------------------------------------- the resume order as written

  /** Resuming with the resume order `loadDraft` is written with. */
  function RestoreAsWritten(s: Session, d: Draft): (r: Session)
    ensures r.screen == ResumeScreenAsWritten(d)
    ensures r.(screen := ResumeScreen(d)) == Restore(s, d)
  {
    Restore(s, d).(screen := ResumeScreenAsWritten(d))
  }

  /** As written, a draft taken on the weather result of a season that drew
      no shock resumes on practice selection, before the season was scored. */
  lemma NoShockResumesOnSelection(s: Session, timestamp: string)
    requires StageInv(s) && s.screen == WeatherResult && s.shock.None?
    ensures ResumeScreenAsWritten(Snapshot(s, timestamp)) == PracticeSelection
    ensures ResumeScreen(Snapshot(s, timestamp)) == WeatherResult
  {
    assert |s.records| != 3;
    assert |s.answers| == 0;
  }

  /** As written, submitting again after such a resume scores the season a
      second time: without a shock and below the cap the farmer gains the
      whole bonus again on top of a score that already includes it. */
  lemma ResumedResubmitScoresTwice(s: Session, timestamp: string)
    requires Valid(s) && StageInv(s) && s.screen == WeatherResult && s.shock.None?
    requires 0 <= s.farmer.value.current && s.farmer.value.current + Bonus(s.selected) <= MaxScore
    ensures var r := RestoreAsWritten(s, Snapshot(s, timestamp));
      && r.screen == PracticeSelection && Valid(r)
      && Enabled(r, SubmitSelection(false, 0))
      && Step(AsWritten, r, SubmitSelection(false, 0)).farmer.value.current
         == s.farmer.value.current + Bonus(s.selected)
      && Step(AsWritten, r, SubmitSelection(false, 0)).farmer.value.current > s.farmer.value.current
  {
    var r := RestoreAsWritten(s, Snapshot(s, timestamp));
    NoShockResumesOnSelection(s, timestamp);
    assert r == s.(screen := PracticeSelection);
    NoShockAddsBonus(s.farmer.value.current, Bonus(s.selected));
  }
}

=== FILE: export.dfy ===
/** The one-row CSV export of a simulation: twelve named columns, with each
    season's practice names joined by "; ". */
module Export {
  import opened Base
  import opened Session
  import opened App

  const Sep: string := "; "

  /** `xs.join("; ")`: the joined text starts with the first name. */
  function Join(xs: seq<string>): (r: string)
    ensures |xs| == 0 ==> r == ""
    ensures |xs| > 0 ==> xs[0] <= r
  {
    if |xs| == 0 then "" else if |xs| == 1 then xs[0] else xs[0] + Sep + Join(xs[1..])
  }

  /** The joined text ends with the last name. */
  lemma {:induction false} JoinEndsWithLast(xs: seq<string>)
    requires |xs| > 0
    ensures var r := Join(xs); var last := xs[|xs| - 1];
      |last| <= |r| && r[|r| - |last|..] == last
  {
    if |xs| > 1 {
      JoinEndsWithLast(xs[1..]);
      var t := Join(xs[1..]);
      var last := xs[|xs| - 1];
      assert xs[1..][|xs[1..]| - 1] == last;
      assert Join(xs) == (xs[0] + Sep) + t;
      assert Join(xs)[|Join(xs)| - |last|..] == t[|t| - |last|..];
    }
  }

  predicate NoSemicolon(x: string) {
    forall i :: 0 <= i < |x| ==> x[i] != ';'
  }

  /** The position of the first "; " in `s`, if any. */
  function FindSep(s: string): (r: Option<nat>)
    ensures r.Some? ==> r.value + 2 <= |s| && s[r.value] == ';' && s[r.value + 1] == ' '
    ensures r.None? ==> forall i :: 0 <= i < |s| - 1 ==> !(s[i] == ';' && s[i + 1] == ' ')
  {
    if |s| < 2 then None
    else if s[0] == ';' && s[1] == ' ' then Some(0)
    else match FindSep(s[1..])
      case None => None
      case Some(k) =>
        assert s[1..][k] == s[k + 1];
        Some(k + 1)
  }

  /** The first "; " after a semicolon-free prefix is the one right after it. */
  lemma {:induction false} FindSepAfter(x: string, t: string)
    requires NoSemicolon(x)
    ensures FindSep(x + Sep + t) == Some(|x|)
  {
    if |x| > 0 {
      assert (x + Sep + t)[1..] == x[1..] + Sep + t;
      FindSepAfter(x[1..], t);
    }
  }

  /** Splitting at every "; ", the reading direction of `Join`. */
  function Split(s: string): (r: seq<string>)
    ensures |r| > 0
    decreases |s|
  {
    match FindSep(s)
    case None => [s]
    case Some(i) => [s[..i]] + Split(s[i + 2..])
  }

  /** A name without semicolons is not split. */
  lemma SplitSingle(x: string)
    requires NoSemicolon(x)
    ensures Split(x) == [x]
  {
  }

  /** A semicolon-free name followed by "; " comes off as the first piece. */
  lemma SplitCons(x: string, t: string)
    requires NoSemicolon(x)
    ensures Split(x + Sep + t) == [x] + Split(t)
  {
    var s := x + Sep + t;
    FindSepAfter(x, t);
    assert s[..|x|] == x;
    assert s[|x| + 2..] == t;
  }

  /** Joined names come apart again when no name contains a semicolon. */
  lemma {:induction false} SplitJoin(xs: seq<string>)
    requires |xs| > 0
    requires forall k :: 0 <= k < |xs| ==> NoSemicolon(xs[k])
    ensures Split(Join(xs)) == xs
  {
    if |xs| == 1 {
      assert Join(xs) == xs[0];
      SplitSingle(xs[0]);
    } else {
      var t := Join(xs[1..]);
      assert Join(xs) == xs[0] + Sep + t;
      SplitCons(xs[0], t);
      SplitJoin(xs[1..]);
      assert xs == [xs[0]] + xs[1..];
    }
  }

  /** A CSV cell: text, or a score in hundredths. */
  datatype Cell = Text(text: string) | Score(hundredths: int)

  const Columns: seq<string> := [
    "Name", "farmerID", "InitialKhetscore",
    "Season1_Practices", "Season1_WeatherShock", "Season1_EndScore",
    "Season2_Practices", "Season2_WeatherShock", "Season2_EndScore",
    "Season3_Practices", "Season3_WeatherShock", "Season3_EndScore"]

  /** The export row of a simulation as column/cell pairs in column order.
      With fewer than three seasons the handler fails on the missing season
      and nothing is exported. */
  function ExportRow(sim: Simulation): (r: Option<seq<(string, Cell)>>)
    ensures r.None? <==> |sim.seasons| < 3
    ensures r.Some? ==>
      && |r.value| == 12
      && (forall k :: 0 <= k < 12 ==> r.value[k].0 == Columns[k])
      && r.value[0].1 == Text(sim.farmer.name)
      && r.value[1].1 == Text(sim.farmer.id)
      && r.value[2].1 == Score(sim.farmer.initial)
      && forall n :: 0 <= n < 3 ==>
           && r.value[3 + 3 * n].1 == Text(Join(sim.seasons[n].practices))
           && r.value[4 + 3 * n].1 == Text(sim.seasons[n].shockName)
           && r.value[5 + 3 * n].1 == Score(sim.seasons[n].endScore)
  {
    if |sim.seasons| < 3 then None
    else
      var s1, s2, s3 := sim.seasons[0], sim.seasons[1], sim.seasons[2];
      Some([
        (Columns[0], Text(sim.farmer.name)),
        (Columns[1], Text(sim.farmer.id)),
        (Columns[2], Score(sim.farmer.initial)),
        (Columns[3], Text(Join(s1.practices))),
        (Columns[4], Text(s1.shockName)),
        (Columns[5], Score(s1.endScore)),
        (Columns[6], Text(Join(s2.practices))),
        (Columns[7], Text(s2.shockName)),
        (Columns[8], Score(s2.endScore)),
        (Columns[9], Text(Join(s3.practices))),
        (Columns[10], Text(s3.shockName)),
        (Columns[11], Score(s3.endScore))])
  }

  /** Each season's practices cell reads back as that season's practice
      list. */
  lemma ExportPracticesRoundTrip(sim: Simulation, n: nat)
    requires |sim.seasons| >= 3 && n < 3
    requires |sim.seasons[n].practices| > 0
    requires forall k :: 0 <= k < |sim.seasons[n].practices| ==> NoSemicolon(sim.seasons[n].practices[k])
    ensures ExportRow(sim).Some?
    ensures Split(ExportRow(sim).value[3 + 3 * n].1.text) == sim.seasons[n].practices
  {
    SplitJoin(sim.seasons[n].practices);
  }

  /** The simulation the export uses when none is passed in: the current
      farmer's name, id and starting score and the session's season
      records. The export never reads a final score, so the one filled in
      here is immaterial. */
  function CurrentSimulation(s: Session, now: int, timestamp: string): (r: Simulation)
    requires s.farmer.Some?
    ensures r.seasons == s.records
    ensures r.farmer.name == s.farmer.value.row.name
    ensures r.farmer.id == s.farmer.value.row.farmerId && r.farmer.initial == s.farmer.value.initial
  {
    var f := s.farmer.value;
    Simulation(now, timestamp, SimFarmer(f.row.name, f.row.farmerId, f.initial, f.current), s.records)
  }
}

=== FILE: farmers.dfy ===
/** The loaded farmer dataset and the two ways the lookup screen searches
    it: an exact id match and a case-insensitive search on id or name.

    A row's Khetscore is the already parsed number, in hundredths. */
module Farmers {
  import opened Base
  import opened Text

  datatype FarmerRow = FarmerRow(farmerId: string, name: string, khetscore: int)

  /** The first row whose id is exactly `id` (`farmersData.find`). */
  function FindFarmer(rows: seq<FarmerRow>, id: string): (r: Option<FarmerRow>)
    ensures r.None? <==> forall i :: 0 <= i < |rows| ==> rows[i].farmerId != id
    ensures r.Some? ==> exists k :: 0 <= k < |rows| && rows[k] == r.value && r.value.farmerId == id &&
                                    forall i :: 0 <= i < k ==> rows[i].farmerId != id
  {
    if |rows| == 0 then None
    else if rows[0].farmerId == id then Some(rows[0])
    else
      var r := FindFarmer(rows[1..], id);
      if r.Some? then
        ghost var k :| 0 <= k < |rows[1..]| && rows[1..][k] == r.value && r.value.farmerId == id &&
                       forall i :: 0 <= i < k ==> rows[1..][i].farmerId != id;
        assert rows[k + 1] == r.value;
        r
      else r
  }

  /** The search condition: the lower-cased query occurs in the lower-cased
      id or the lower-cased name. */
  predicate Matches(row: FarmerRow, query: string) {
    Contains(Lower(row.farmerId), Lower(query)) || Contains(Lower(row.name), Lower(query))
  }

  /** The matching rows, in dataset order (`farmersData.filter`). */
  function FilterRows(rows: seq<FarmerRow>, query: string): (r: seq<FarmerRow>)
    ensures |r| <= |rows|
    ensures forall x :: x in r <==> x in rows && Matches(x, query)
    ensures |rows| == 1 ==> r == (if Matches(rows[0], query) then rows else [])
  {
    if |rows| == 0 then []
    else
      var rest := FilterRows(rows[1..], query);
      if Matches(rows[0], query) then [rows[0]] + rest else rest
  }

  /** Filtering works piece by piece, so the matches keep the dataset's
      order. */
  lemma {:induction false} FilterConcat(a: seq<FarmerRow>, b: seq<FarmerRow>, query: string)
    ensures FilterRows(a + b, query) == FilterRows(a, query) + FilterRows(b, query)
  {
    if |a| == 0 {
      assert a + b == b;
    } else {
      assert (a + b)[1..] == a[1..] + b;
      FilterConcat(a[1..], b, query);
      if Matches(a[0], query) {
        assert [a[0]] + (FilterRows(a[1..], query) + FilterRows(b, query))
            == ([a[0]] + FilterRows(a[1..], query)) + FilterRows(b, query);
      }
    }
  }

  /** The dropdown contents for what has been typed so far: nothing for a
      blank entry, the matching rows otherwise. */
  function Search(rows: seq<FarmerRow>, typed: string): (r: seq<FarmerRow>)
    ensures Blank(typed) ==> r == []
    ensures !Blank(typed) ==> forall x :: x in r <==> x in rows && Matches(x, typed)
    ensures !Blank(typed) ==> r == FilterRows(rows, typed)
  {
    if Blank(typed) then [] else FilterRows(rows, typed)
  }

  /** A farmer picked from the dropdown is then found by the exact lookup. */
  lemma PickedRowIsFound(rows: seq<FarmerRow>, row: FarmerRow)
    requires row in rows
    ensures FindFarmer(rows, row.farmerId).Some?
    ensures FindFarmer(rows, row.farmerId).value.farmerId == row.farmerId
  {
  }

  /** With unique ids the exact lookup returns the very row with that id. */
  lemma FindUnique(rows: seq<FarmerRow>, k: int)
    requires 0 <= k < |rows|
    requires forall i, j :: 0 <= i < j < |rows| ==> rows[i].farmerId != rows[j].farmerId
    ensures FindFarmer(rows, rows[k].farmerId) == Some(rows[k])
  {
    var r := FindFarmer(rows, rows[k].farmerId);
    var m :| 0 <= m < |rows| && rows[m] == r.value && r.value.farmerId == rows[k].farmerId &&
             forall i :: 0 <= i < m ==> rows[i].farmerId != rows[k].farmerId;
  }

  /** Typing a farmer's full id (in any letter case) always lists that farmer
      in the dropdown. */
  lemma TypedIdIsListed(rows: seq<FarmerRow>, row: FarmerRow, typed: string)
    requires row in rows && !Blank(typed)
    requires Lower(typed) == Lower(row.farmerId)
    ensures row in Search(rows, typed)
  {
    ContainsSelf(Lower(row.farmerId));
  }
}

=== FILE: flow.dfy ===
/** Sequences of user actions over a session: which handler each screen's
    buttons can invoke, and what holds after any sequence of them. */
module Flow {
  import opened Base
  import opened Catalog
  import opened Scoring
  import opened Selection
  import opened Farmers
  import opened Session

  /** One user action on the session screens. The two random draws of a
      practice submission are part of the event. */
  datatype Event =
    | EditId(typed: string)
    | Pick(row: FarmerRow)
    | LookUp
    | Begin
    | Tick(id: int)
    | SubmitSelection(hasShock: bool, idx: int)
    | ContinueToAssessment
    | Choose(id: int, answer: Answer)
    | SubmitAssessment
    | GoBack

  /** Which version of the two corrected handlers a step uses: the lookup
      and likelihood submit as `handleFarmerLookup` and
      `handleLikelihoodSubmit` are written, or with the stale answers
      cleared. Every other handler is the same in both. */
  datatype Handlers = AsWritten | Corrected

  /** The screens of a running simulation, from intro to summary. */
  predicate InSimulation(screen: Screen) {
    screen.SeasonIntro? || screen.PracticeSelection? || screen.WeatherResult? ||
    screen.Likelihood? || screen.Summary?
  }

  /** What every session the handlers produce satisfies: a season between 1
      and 3, catalog practices without repeats, and, while a simulation is
      on screen, a farmer and all three history slots. */
  predicate Valid(s: Session) {
    && 1 <= s.season <= 3
    && AllKnown(s.selected) && NoDup(s.selected)
    && (forall k :: k in s.history ==> AllKnown(s.history[k].practices) && NoDup(s.history[k].practices))
    && (InSimulation(s.screen) ==> s.farmer.Some? && 1 in s.history && 2 in s.history && 3 in s.history)
  }

  /** Whether the current screen offers the control that raises `e`: the
      practice submit button is disabled below seven selections and the
      assessment submit button until every selected practice is answered.
      A farmer can be picked from the search dropdown or from the "View All
      Farmers" list of the whole dataset. The lookup screen's back control
      goes home instead, so Back is only offered inside a simulation. */
  predicate Enabled(s: Session, e: Event)
    ensures Enabled(s, e) ==> s.screen != Dashboard
    ensures e.SubmitSelection? && Enabled(s, e) ==> |s.selected| >= MinSelected
    ensures e.SubmitAssessment? && Enabled(s, e) ==> AllAnswered(s.selected, s.answers)
    ensures e.Choose? && Enabled(s, e) ==> e.id in s.selected
  {
    match e
    case EditId(_) => s.screen == FarmerLookup
    case Pick(row) => s.screen == FarmerLookup && ((s.dropdown && row in s.matches) || row in s.farmers)
    case LookUp => s.screen == FarmerLookup
    case Begin => s.screen == SeasonIntro
    case Tick(id) => s.screen == PracticeSelection && Known(id)
    case SubmitSelection(_, idx) =>
      s.screen == PracticeSelection && |s.selected| >= MinSelected && 0 <= idx < |Shocks|
    case ContinueToAssessment => s.screen == WeatherResult
    case Choose(id, _) => s.screen == Likelihood && id in s.selected
    case SubmitAssessment => s.screen == Likelihood && AllAnswered(s.selected, s.answers)
    case GoBack => InSimulation(s.screen)
  }

  /** The handler an enabled action invokes. The dataset never changes, and
      only an assessment submission (which appends this season's record)
      and a lookup (which starts afresh) touch the records. */
  function Step(h: Handlers, s: Session, e: Event): (r: Session)
    requires Valid(s) && Enabled(s, e)
    ensures r.farmers == s.farmers
    ensures e.SubmitAssessment? ==> r.records == s.records + [CurrentRecord(s)]
    ensures !e.SubmitAssessment? && !e.LookUp? ==> r.records == s.records
  {
    match e
    case EditId(typed) => EditFarmerId(s, typed)
    case Pick(row) => PickFarmer(s, row)
    case LookUp => if h.AsWritten? then LookupAsWritten(s) else Lookup(s)
    case Begin => BeginSeason(s)
    case Tick(id) => TogglePractice(s, id)
    case SubmitSelection(hasShock, idx) => SubmitPractices(s, hasShock, idx)
    case ContinueToAssessment => ContinueWeather(s)
    case Choose(id, a) => AnswerPractice(s, id, a)
    case SubmitAssessment => if h.AsWritten? then SubmitLikelihoodAsWritten(s) else SubmitLikelihood(s)
    case GoBack => Back(s)
  }

  /** Every enabled action keeps a session valid, with either version of
      the handlers. */
  lemma StepKeepsValid(h: Handlers, s: Session, e: Event)
    requires Valid(s) && Enabled(s, e)
    ensures Valid(Step(h, s, e))
  {
    match e
    case Tick(id) =>
      ToggleKeepsNoDup(s.selected, id);
      ToggleKeepsKnown(s.selected, id);
    case SubmitSelection(hasShock, idx) => SubmitKeepsValid(s, hasShock, idx);
    case SubmitAssessment => AssessKeepsValid(h, s);
    case GoBack => BackKeepsValid(s);
    case LookUp => LookupKeepsValid(h, s);
    case _ =>
  }

  lemma SubmitKeepsValid(s: Session, hasShock: bool, idx: int)
    requires Valid(s) && Enabled(s, SubmitSelection(hasShock, idx))
    ensures Valid(SubmitPractices(s, hasShock, idx))
  {
    var r := SubmitPractices(s, hasShock, idx);
    assert forall k :: k in r.history ==> k == s.season || k in s.history;
  }

  lemma AssessKeepsValid(h: Handlers, s: Session)
    requires Valid(s) && Enabled(s, SubmitAssessment)
    ensures Valid(SubmitLikelihoodAsWritten(s)) && Valid(SubmitLikelihood(s))
    ensures Valid(Step(h, s, SubmitAssessment))
  {
    var r := SubmitLikelihoodAsWritten(s);
    assert forall k :: k in r.history ==> k == s.season || k in s.history;
  }

  lemma BackKeepsValid(s: Session)
    requires Valid(s) && Enabled(s, GoBack)
    ensures Valid(Back(s))
  {
  }

  lemma LookupKeepsValid(h: Handlers, s: Session)
    requires Valid(s) && Enabled(s, LookUp)
    ensures Valid(LookupAsWritten(s)) && Valid(Lookup(s))
    ensures Valid(Step(h, s, LookUp))
  {
  }

  /** A sequence of actions each of which is enabled when it happens. */
  predicate ValidRun(h: Handlers, s: Session, evs: seq<Event>)
    requires Valid(s)
    decreases |evs|
  {
    |evs| == 0 ||
    (Enabled(s, evs[0]) && (StepKeepsValid(h, s, evs[0]); ValidRun(h, Step(h, s, evs[0]), evs[1..])))
  }

  function Run(h: Handlers, s: Session, evs: seq<Event>): (r: Session)
    requires Valid(s) && ValidRun(h, s, evs)
    ensures Valid(r)
    decreases |evs|
  {
    if |evs| == 0 then s
    else
      StepKeepsValid(h, s, evs[0]);
      Run(h, Step(h, s, evs[0]), evs[1..])
  }

  /** How many assessment submissions a sequence of actions contains. */
  function Submits(evs: seq<Event>): nat {
    if |evs| == 0 then 0
    else (if evs[0].SubmitAssessment? then 1 else 0) + Submits(evs[1..])
  }

  predicate NoBack(evs: seq<Event>) {
    forall i :: 0 <= i < |evs| ==> !evs[i].GoBack?
  }

  // ------------------------------------------------------ records, any run

  /** Holds of every session, Back or not: there are at least as many
      records as completed seasons, the summary is only shown once three
      records exist, and each record carries its season's label. */
  predicate RecordsInv(s: Session) {
    && |s.records| >= s.season - 1
    && (s.screen == Summary ==> |s.records| >= 3)
    && forall i :: 0 <= i < |s.records| ==>
         1 <= s.records[i].season <= 3 && s.records[i].seasonType == SeasonLabel(s.records[i].season)
  }

  lemma StepKeepsRecordsInv(h: Handlers, s: Session, e: Event)
    requires Valid(s) && Enabled(s, e) && RecordsInv(s)
    ensures RecordsInv(Step(h, s, e))
  {
    if e.LookUp? {
      if FindFarmer(s.farmers, s.typed).None? {
        assert Step(h, s, e) == s.(error := NotFound);
      }
    }
  }

  /** The summary is never reached with fewer than three season records,
      whatever mix of forward and Back actions led there. */
  lemma {:induction false} RunKeepsRecordsInv(h: Handlers, s: Session, evs: seq<Event>)
    requires Valid(s) && ValidRun(h, s, evs) && RecordsInv(s)
    ensures RecordsInv(Run(h, s, evs))
    ensures Run(h, s, evs).screen == Summary ==> |Run(h, s, evs).records| >= 3
    decreases |evs|
  {
    if |evs| > 0 {
      StepKeepsValid(h, s, evs[0]);
      StepKeepsRecordsInv(h, s, evs[0]);
      RunKeepsRecordsInv(h, Step(h, s, evs[0]), evs[1..]);
    }
  }

  /** Back from the summary followed by a second assessment submission
      appends a fourth record for season 3: Back does not take records away. */
  lemma BackThenResubmitAppends(h: Handlers, s: Session)
    requires Valid(s) && s.screen == Summary && s.season == 3
    requires AllAnswered(s.history[3].practices, s.history[3].likelihood)
    ensures Enabled(s, GoBack)
    ensures var b := Step(h, s, GoBack);
      && b.screen == Likelihood && b.records == s.records
      && Valid(b) && Enabled(b, SubmitAssessment)
      && var t := Step(h, b, SubmitAssessment);
         && t.screen == Summary
         && |t.records| == |s.records| + 1
         && t.records[..|s.records|] == s.records
         && t.records[|s.records|].season == 3
  {
    StepKeepsValid(h, s, GoBack);
  }

  // -------------------------------------------------------- forward runs

  /** What a forward-only walk from a fresh lookup keeps: records numbered
      1, 2, ... in order, one per completed season, and exactly three on the
      summary. */
  predicate ForwardInv(s: Session) {
    && InSimulation(s.screen)
    && 1 <= s.season <= 3
    && (forall i :: 0 <= i < |s.records| ==> s.records[i].season == i + 1)
    && (s.screen == Summary ==> |s.records| == 3 && s.season == 3)
    && (s.screen != Summary ==> |s.records| == s.season - 1)
  }

  /** A successful lookup starts a forward walk. */
  lemma LookupStartsForward(h: Handlers, s: Session)
    requires Valid(s) && s.screen == FarmerLookup
    requires FindFarmer(s.farmers, s.typed).Some?
    ensures Enabled(s, LookUp)
    ensures ForwardInv(Step(h, s, LookUp))
    ensures Step(h, s, LookUp).records == [] && Step(h, s, LookUp).season == 1
  {
  }

  lemma StepKeepsForwardInv(h: Handlers, s: Session, e: Event)
    requires Valid(s) && Enabled(s, e) && ForwardInv(s) && !e.GoBack?
    ensures ForwardInv(Step(h, s, e))
    ensures Step(h, s, e).records == s.records + (if e.SubmitAssessment? then [CurrentRecord(s)] else [])
  {
  }

  /** A forward walk only ever appends records, one per assessment
      submission. */
  lemma {:induction false} ForwardRun(h: Handlers, s: Session, evs: seq<Event>)
    requires Valid(s) && ValidRun(h, s, evs) && ForwardInv(s) && NoBack(evs)
    ensures ForwardInv(Run(h, s, evs))
    ensures |Run(h, s, evs).records| == |s.records| + Submits(evs)
    ensures Run(h, s, evs).records[..|s.records|] == s.records
    decreases |evs|
  {
    if |evs| > 0 {
      StepKeepsValid(h, s, evs[0]);
      StepKeepsForwardInv(h, s, evs[0]);
      var t := Step(h, s, evs[0]);
      assert NoBack(evs[1..]) by {
        forall i | 0 <= i < |evs[1..]| ensures !evs[1..][i].GoBack? {
          assert evs[1..][i] == evs[i + 1];
        }
      }
      ForwardRun(h, t, evs[1..]);
    }
  }

  /** From a successful lookup, a forward walk that ends on the summary went
      through exactly three assessment submissions and holds exactly three
      records, for seasons 1, 2 and 3, labelled Rabi, Kharif and Rabi. */
  lemma ThreeSeasonsToSummary(h: Handlers, s: Session, evs: seq<Event>)
    requires Valid(s) && s.screen == FarmerLookup && FindFarmer(s.farmers, s.typed).Some?
    requires Enabled(s, LookUp) && Valid(Step(h, s, LookUp))
    requires ValidRun(h, Step(h, s, LookUp), evs) && NoBack(evs)
    requires Run(h, Step(h, s, LookUp), evs).screen == Summary
    ensures Submits(evs) == 3
    ensures var r := Run(h, Step(h, s, LookUp), evs);
      && |r.records| == 3
      && r.records[0].season == 1 && r.records[1].season == 2 && r.records[2].season == 3
      && r.records[0].seasonType == "Rabi" && r.records[1].seasonType == "Kharif"
      && r.records[2].seasonType == "Rabi"
  {
    LookupStartsForward(h, s);
    var t := Step(h, s, LookUp);
    ForwardRun(h, t, evs);
    RunKeepsRecordsInv(h, t, evs);
  }
}

=== FILE: scoring.dfy ===
/** The season scoring step: the bonus of the selected practices, the
    optional weather shock, and the new Khetscore.

    A score is an integer number of hundredths (51.87 is 5187). The raw new
    score `cur + bonus - |impact * cur|` is computed exactly in
    ten-thousandths, clamped to [0, 100] and rounded half-up to hundredths,
    which is what `toFixed(2)` does on the exact decimal value. */
module Scoring {
  import opened Base
  import opened Catalog

  /** 100.00 in hundredths. */
  const MaxScore: int := 10000

  /** A practice submission with fewer selections than this is rejected. */
  const MinSelected: int := 7

  /** Sum of the weights of the selected practices. */
  function Bonus(ids: seq<int>): (b: int)
    requires AllKnown(ids)
    ensures 5 * |ids| <= b <= 40 * |ids|
  {
    if |ids| == 0 then 0 else Weight(ids[0]) + Bonus(ids[1..])
  }

  /** Selecting one more practice adds exactly its weight. */
  lemma {:induction false} BonusAppend(ids: seq<int>, x: int)
    requires AllKnown(ids) && Known(x)
    ensures AllKnown(ids + [x])
    ensures Bonus(ids + [x]) == Bonus(ids) + Weight(x)
  {
    if |ids| == 0 {
      assert ids + [x] == [x];
    } else {
      assert (ids + [x])[1..] == ids[1..] + [x];
      BonusAppend(ids[1..], x);
    }
  }

  /** Taking the practice at position i out of the list subtracts its weight. */
  lemma {:induction false} BonusSplit(ids: seq<int>, i: int)
    requires AllKnown(ids) && 0 <= i < |ids|
    ensures AllKnown(ids[..i] + ids[i + 1..])
    ensures Bonus(ids) == Weight(ids[i]) + Bonus(ids[..i] + ids[i + 1..])
  {
    var rest := ids[..i] + ids[i + 1..];
    forall k | 0 <= k < |rest|
      ensures Known(rest[k])
    {
      if k < i {
        assert rest[k] == ids[k];
      } else {
        assert rest[k] == ids[k + 1];
      }
    }
    if i == 0 {
      assert rest == ids[1..];
    } else {
      var tail := ids[1..];
      var tailRest := tail[..i - 1] + tail[i..];
      BonusSplit(tail, i - 1);
      assert rest == [ids[0]] + tailRest;
      assert rest[1..] == tailRest;
      calc {
        Bonus(rest);
        Weight(ids[0]) + Bonus(tailRest);
        Weight(ids[0]) + Bonus(tail) - Weight(ids[i]);
        Bonus(ids) - Weight(ids[i]);
      }
    }
  }

  /** The bonus is the sum over the selection as a collection: the order in
      which the practices were ticked does not matter. */
  lemma {:induction false} BonusOrderFree(a: seq<int>, b: seq<int>)
    requires AllKnown(a) && AllKnown(b)
    requires multiset(a) == multiset(b)
    ensures Bonus(a) == Bonus(b)
  {
    if |a| == 0 {
      assert |b| == |multiset(b)| == 0;
    } else {
      assert a[0] in multiset(b);
      var i :| 0 <= i < |b| && b[i] == a[0];
      MultisetRemoveAt(a, b, i);
      BonusSplit(b, i);
      BonusOrderFree(a[1..], b[..i] + b[i + 1..]);
    }
  }

  /** The shock picked by the two random draws: none unless the first draw
      came out below one half, otherwise the shock at the drawn index. */
  function ShockFor(hasShock: bool, idx: int): (r: Option<Shock>)
    requires 0 <= idx < |Shocks|
    ensures r.Some? <==> hasShock
    ensures r.Some? ==> r.value in Shocks && r.value == Shocks[idx]
  {
    if hasShock then Some(Shocks[idx]) else None
  }

  /** The shock's impact fraction in hundredths, 0 without a shock. */
  function ImpactOf(shock: Option<Shock>): int {
    if shock.Some? then shock.value.impact else 0
  }

  function Abs(x: int): int {
    if x < 0 then -x else x
  }

  /** The unclamped new score in ten-thousandths. */
  function RawScore(cur: int, bonus: int, shock: Option<Shock>): int {
    100 * cur + 100 * bonus - Abs(ImpactOf(shock) * cur)
  }

  /** `Math.max(lo, Math.min(hi, x))`. */
  function Clamp(x: int, lo: int, hi: int): int
    requires lo <= hi
  {
    if x < lo then lo else if x > hi then hi else x
  }

  /** The new score in hundredths: the clamped raw score, rounded half-up. */
  function NewScore(cur: int, bonus: int, shock: Option<Shock>): (r: int)
    ensures 0 <= r <= MaxScore
    ensures var c := Clamp(RawScore(cur, bonus, shock), 0, 100 * MaxScore);
            100 * r - 50 <= c < 100 * r + 50
  {
    var c := Clamp(RawScore(cur, bonus, shock), 0, 100 * MaxScore);
    (c + 50) / 100
  }

  /** One scoring step on a selection with the two random draws supplied:
      the shock it picks and the new score. */
  function ScoreSeason(cur: int, ids: seq<int>, hasShock: bool, idx: int): (r: (Option<Shock>, int))
    requires AllKnown(ids) && 0 <= idx < |Shocks|
    ensures r.0.Some? <==> hasShock
    ensures hasShock ==> r.0 == Some(Shocks[idx])
    ensures r.1 == NewScore(cur, Bonus(ids), r.0)
    ensures 0 <= r.1 <= MaxScore
  {
    var shock := ShockFor(hasShock, idx);
    (shock, NewScore(cur, Bonus(ids), shock))
  }

  /** Without a shock the new score is exactly 100.00 whenever the current
      score plus the bonus reaches 100. */
  lemma NoShockSaturates(cur: int, bonus: int)
    requires cur + bonus >= MaxScore
    ensures NewScore(cur, bonus, None) == MaxScore
  {
  }

  /** Without a shock and below the cap, the new score is exactly the current
      score plus the bonus. */
  lemma NoShockAddsBonus(cur: int, bonus: int)
    requires 0 <= cur && 0 <= bonus && cur + bonus <= MaxScore
    ensures NewScore(cur, bonus, None) == cur + bonus
  {
    assert RawScore(cur, bonus, None) == 100 * (cur + bonus);
  }

  /** A larger bonus never gives a lower score. */
  lemma NewScoreMonotoneInBonus(cur: int, b1: int, b2: int, shock: Option<Shock>)
    requires b1 <= b2
    ensures NewScore(cur, b1, shock) <= NewScore(cur, b2, shock)
  {
    var c1 := Clamp(RawScore(cur, b1, shock), 0, 100 * MaxScore);
    var c2 := Clamp(RawScore(cur, b2, shock), 0, 100 * MaxScore);
    assert c1 <= c2;
    DivMonotone(c1 + 50, c2 + 50);
  }

  /** A shock never gives a higher score than no shock. */
  lemma ShockNeverHelps(cur: int, bonus: int, s: Shock)
    ensures NewScore(cur, bonus, Some(s)) <= NewScore(cur, bonus, None)
  {
    var c1 := Clamp(RawScore(cur, bonus, Some(s)), 0, 100 * MaxScore);
    var c2 := Clamp(RawScore(cur, bonus, None), 0, 100 * MaxScore);
    assert c1 <= c2;
    DivMonotone(c1 + 50, c2 + 50);
  }

  lemma DivMonotone(x: int, y: int)
    requires 0 <= x <= y
    ensures x / 100 <= y / 100
  {
  }

  /** A worked example over two seasons: 50.00 with practices 1..7 (bonus
      1.87) and no shock gives 51.87; the same practices with Flood then
      give 43.37. */
  lemma WorkedExample()
    ensures Bonus([1, 2, 3, 4, 5, 6, 7]) == 187
    ensures NewScore(5000, 187, None) == 5187
    ensures NewScore(5187, 187, Some(Shocks[1])) == 4337
  {
    var ids := [1, 2, 3, 4, 5, 6, 7];
    assert ids[6..][1..] == [];
    assert Bonus(ids[6..]) == 7;
    assert ids[5..][1..] == ids[6..];
    assert Bonus(ids[5..]) == 27;
    assert ids[4..][1..] == ids[5..];
    assert Bonus(ids[4..]) == 47;
    assert ids[3..][1..] == ids[4..];
    assert Bonus(ids[3..]) == 87;
    assert ids[2..][1..] == ids[3..];
    assert Bonus(ids[2..]) == 127;
    assert ids[1..][1..] == ids[2..];
    assert Bonus(ids[1..]) == 147;
  }
}

=== FILE: selection.dfy ===
/** Ticking and unticking a practice on the selection screen. */
module Selection {
  import opened Base
  import opened Catalog
  import opened Scoring

  /** Removes `id` if it is selected, appends it otherwise. */
  function Toggle(sel: seq<int>, id: int): (r: seq<int>)
    ensures id in r <==> id !in sel
    ensures forall x :: x != id ==> (x in r <==> x in sel)
    ensures id !in sel ==> r == sel + [id]
    ensures id in sel ==> r == Remove(sel, id)
  {
    if id in sel then Remove(sel, id) else sel + [id]
  }

  /** Toggling keeps the selection free of duplicates and changes its size by
      exactly one. */
  lemma ToggleKeepsNoDup(sel: seq<int>, id: int)
    requires NoDup(sel)
    ensures NoDup(Toggle(sel, id))
    ensures |Toggle(sel, id)| == if id in sel then |sel| - 1 else |sel| + 1
  {
    RemoveNoDup(sel, id);
  }

  /** Toggling an unselected practice twice gives back the original list. */
  lemma ToggleTwiceAbsent(sel: seq<int>, id: int)
    requires id !in sel
    ensures Toggle(Toggle(sel, id), id) == sel
  {
    RemoveAppended(sel, id);
  }

  /** Toggling a selected practice twice gives back the same practices, now
      with `id` moved to the end. */
  lemma ToggleTwicePresent(sel: seq<int>, id: int)
    requires NoDup(sel) && id in sel
    ensures multiset(Toggle(Toggle(sel, id), id)) == multiset(sel)
    ensures Toggle(Toggle(sel, id), id) == Remove(sel, id) + [id]
  {
    RemoveMultiset(sel, id);
  }

  /** Only catalog ids can be ticked, so a toggled selection stays known. */
  lemma ToggleKeepsKnown(sel: seq<int>, id: int)
    requires AllKnown(sel) && Known(id)
    ensures AllKnown(Toggle(sel, id))
  {
    var r := Toggle(sel, id);
    forall k | 0 <= k < |r|
      ensures Known(r[k])
    {
      assert r[k] in r;
      if r[k] != id {
        assert r[k] in sel;
      }
    }
  }

  /** Ticking a practice adds its weight to the bonus the next scoring step
      will use, and unticking subtracts it. */
  lemma ToggleBonus(sel: seq<int>, id: int)
    requires AllKnown(sel) && Known(id) && NoDup(sel)
    ensures AllKnown(Toggle(sel, id))
    ensures Bonus(Toggle(sel, id)) == if id in sel then Bonus(sel) - Weight(id) else Bonus(sel) + Weight(id)
  {
    ToggleKeepsKnown(sel, id);
    if id in sel {
      var r := Remove(sel, id);
      RemoveMultiset(sel, id);
      assert multiset(r + [id]) == multiset(sel);
      assert AllKnown(r + [id]) by {
        forall k | 0 <= k < |r + [id]| ensures Known((r + [id])[k]) {
          if k < |r| { assert r[k] in sel; }
        }
      }
      BonusOrderFree(r + [id], sel);
      BonusAppend(r, id);
    } else {
      BonusAppend(sel, id);
    }
  }
}

=== FILE: session.dfy ===
/** The season-simulation session: one immutable record holding what the
    screen handlers read and write, and one pure transition per handler.

    A session walks a farmer through three seasons. Each season goes
    season-intro -> practice-selection -> weather-result -> likelihood, then
    on to the next season's intro, or to the summary after season 3. */
module Session {
  import opened Base
  import opened Catalog
  import opened Scoring
  import opened Selection
  import opened Text
  import opened Farmers

  datatype Screen =
    | Dashboard
    | FarmerLookup
    | SeasonIntro
    | PracticeSelection
    | WeatherResult
    | Likelihood
    | Summary

  /** The four answers to "how likely are you to actually do it", in order. */
  datatype Answer = DefinitelyWont | ProbablyWont | ProbablyWill | DefinitelyWill

  /** The farmer under simulation: the dataset row, the Khetscore at lookup
      and the Khetscore now (both in hundredths). */
  datatype Farmer = Farmer(row: FarmerRow, initial: int, current: int)

  /** One completed season as stored in the session's record list. */
  datatype SeasonRecord = SeasonRecord(
    season: int,
    seasonType: string,
    practices: seq<string>,
    shockName: string,
    endScore: int,
    likelihood: map<int, Answer>)

  /** What the session remembers of a season so that Back can restore it. */
  datatype HistorySlot = HistorySlot(
    practices: seq<int>,
    weather: Option<Shock>,
    score: int,
    likelihood: map<int, Answer>)

  datatype Session = Session(
    screen: Screen,
    farmers: seq<FarmerRow>,
    typed: string,
    matches: seq<FarmerRow>,
    dropdown: bool,
    error: string,
    farmer: Option<Farmer>,
    season: int,
    selected: seq<int>,
    shock: Option<Shock>,
    records: seq<SeasonRecord>,
    answers: map<int, Answer>,
    history: map<int, HistorySlot>)

  const NotFound: string := "Farmer ID not found"
  const TooFewPractices: string := "Please select at least 7 practices"
  const NoShockName: string := "None"

  /** The session before any farmer is chosen, over a loaded dataset: the
      dashboard, season 1, and nothing typed, selected, answered or
      recorded. */
  function Initial(farmers: seq<FarmerRow>): (s: Session)
    ensures s.screen == Dashboard && s.farmers == farmers && s.season == 1
    ensures s.typed == "" && s.matches == [] && !s.dropdown && s.error == ""
    ensures s.farmer == None && s.shock == None
    ensures s.selected == [] && s.records == [] && s.answers == map[] && s.history == map[]
  {
    Session(Dashboard, farmers, "", [], false, "", None, 1, [], None, [], map[], map[])
  }

  /** Odd seasons are Rabi, even seasons Kharif (`season % 2 === 1`). */
  function SeasonLabel(season: int): (name: string)
    ensures name == "Rabi" || name == "Kharif"
  {
    if season > 0 && season % 2 == 1 then "Rabi" else "Kharif"
  }

  /** Consecutive seasons alternate Rabi and Kharif, starting with Rabi. */
  lemma SeasonLabelsAlternate(n: int)
    requires n >= 1
    ensures SeasonLabel(1) == "Rabi"
    ensures SeasonLabel(n) != SeasonLabel(n + 1)
  {
  }

  /** The three history slots a lookup sets up, all at the looked-up score. */
  function FreshHistory(score: int): (h: map<int, HistorySlot>)
    ensures h.Keys == {1, 2, 3}
    ensures forall k :: k in h ==> h[k] == HistorySlot([], None, score, map[])
  {
    map[1 := HistorySlot([], None, score, map[]),
        2 := HistorySlot([], None, score, map[]),
        3 := HistorySlot([], None, score, map[])]
  }

  /** Every selected practice has an answer: the condition that enables the
      likelihood submit button. */
  predicate AllAnswered(sel: seq<int>, answers: map<int, Answer>)
    ensures |sel| == 0 ==> AllAnswered(sel, answers)
    ensures AllAnswered(sel, answers) ==> forall id :: id in sel ==> id in answers
  {
    forall i :: 0 <= i < |sel| ==> sel[i] in answers
  }

  /** The submit button's condition depends only on which practices are
      selected, not on their order or repeats: every selected practice has
      an answer. */
  lemma AllAnsweredMembers(sel: seq<int>, answers: map<int, Answer>)
    ensures AllAnswered(sel, answers) <==> forall id :: id in sel ==> id in answers
  {
    if forall id :: id in sel ==> id in answers {
      forall i | 0 <= i < |sel|
        ensures sel[i] in answers
      {
        assert sel[i] in sel;
      }
    }
  }

  /** The display names of the selected practices, in selection order. */
  function PracticeNamesOf(sel: seq<int>): (names: seq<string>)
    requires AllKnown(sel)
    ensures |names| == |sel|
    ensures forall i :: 0 <= i < |sel| ==> names[i] == Name(sel[i])
  {
    seq(|sel|, i requires 0 <= i < |sel| => Name(sel[i]))
  }

  // ---------------------------------------------------------------- lookup

  /** Typing in the farmer id box: clears the error and recomputes the
      dropdown; the dropdown shows only when something matched. */
  function EditFarmerId(s: Session, typed: string): (r: Session)
    ensures r.typed == typed && r.error == ""
    ensures Blank(typed) ==> r.matches == [] && !r.dropdown
    ensures !Blank(typed) ==> forall x :: x in r.matches <==> x in s.farmers && Matches(x, typed)
    ensures r.dropdown <==> |r.matches| > 0
    ensures !Blank(typed) ==> r.matches == FilterRows(s.farmers, typed)
    ensures r.(typed := s.typed, error := s.error, matches := s.matches, dropdown := s.dropdown) == s
  {
    var found := Search(s.farmers, typed);
    s.(typed := typed, error := "", matches := found, dropdown := |found| > 0)
  }

  /** Picking a farmer from the dropdown fills in its id and closes the list. */
  function PickFarmer(s: Session, row: FarmerRow): (r: Session)
    ensures r.typed == row.farmerId && !r.dropdown && r.matches == []
    ensures r.(typed := s.typed, dropdown := s.dropdown, matches := s.matches) == s
  {
    s.(typed := row.farmerId, dropdown := false, matches := [])
  }

  /** The lookup button as `handleFarmerLookup` is written: on an exact id match it
      starts season 1 of a fresh session at the farmer's Khetscore; otherwise
      it only reports the error. The in-progress selections, shock and
      answers are left as they were. */
  function LookupAsWritten(s: Session): (r: Session)
    ensures FindFarmer(s.farmers, s.typed).None? ==> r == s.(error := NotFound)
    ensures FindFarmer(s.farmers, s.typed).Some? ==>
      var row := FindFarmer(s.farmers, s.typed).value;
      && row in s.farmers && row.farmerId == s.typed
      && r.farmer == Some(Farmer(row, row.khetscore, row.khetscore))
      && r.screen == SeasonIntro && r.season == 1 && r.records == [] && r.error == ""
      && !r.dropdown
      && r.history == FreshHistory(row.khetscore)
      && r.selected == s.selected && r.shock == s.shock && r.answers == s.answers
      && r.farmers == s.farmers && r.typed == s.typed && r.matches == s.matches
  {
    match FindFarmer(s.farmers, s.typed)
    case None => s.(error := NotFound)
    case Some(row) =>
      s.(farmer := Some(Farmer(row, row.khetscore, row.khetscore)),
         error := "", season := 1, records := [], dropdown := false,
         history := FreshHistory(row.khetscore), screen := SeasonIntro)
  }

  /** The lookup with the correction this model uses: a successful lookup
      also clears the selections, shock and answers left over from an earlier
      session. */
  function Lookup(s: Session): (r: Session)
    ensures FindFarmer(s.farmers, s.typed).None? ==> r == s.(error := NotFound)
    ensures FindFarmer(s.farmers, s.typed).Some? ==>
      && r.screen == SeasonIntro && r.season == 1 && r.records == []
      && r.selected == [] && r.shock == None && r.answers == map[]
      && r.farmer.Some? && r.farmer.value.current == r.farmer.value.initial
      && r == LookupAsWritten(s).(selected := [], shock := None, answers := map[])
  {
    var t := LookupAsWritten(s);
    if t.screen == SeasonIntro && FindFarmer(s.farmers, s.typed).Some? then
      t.(selected := [], shock := None, answers := map[])
    else t
  }

  // ------------------------------------------------------------ one season

  /** The intro screen's button. */
  function BeginSeason(s: Session): (r: Session)
    ensures r.screen == PracticeSelection && r.(screen := s.screen) == s
  {
    s.(screen := PracticeSelection)
  }

  /** Ticking or unticking one practice. */
  function TogglePractice(s: Session, id: int): (r: Session)
    ensures (id in r.selected) <==> (id !in s.selected)
    ensures r.selected == Toggle(s.selected, id)
    ensures r.(selected := s.selected) == s
  {
    s.(selected := Toggle(s.selected, id))
  }

  /** Submitting the practice selection with the two random draws supplied.
      Fewer than seven practices only sets the error. Otherwise the shock is
      drawn, the farmer's score becomes the season's new score, and this
      season's history slot records practices, shock and score. */
  function SubmitPractices(s: Session, hasShock: bool, idx: int): (r: Session)
    requires s.farmer.Some? && AllKnown(s.selected) && 0 <= idx < |Shocks|
    ensures |s.selected| < MinSelected ==> r == s.(error := TooFewPractices)
    ensures |s.selected| >= MinSelected ==>
      var (shock, score) := ScoreSeason(s.farmer.value.current, s.selected, hasShock, idx);
      && r.screen == WeatherResult && r.error == ""
      && r.shock == shock && (r.shock.Some? <==> hasShock)
      && r.farmer == Some(s.farmer.value.(current := score))
      && 0 <= r.farmer.value.current <= MaxScore
      && s.season in r.history
      && r.history[s.season].practices == s.selected
      && r.history[s.season].weather == shock
      && r.history[s.season].score == score
      && (s.season in s.history ==> r.history[s.season].likelihood == s.history[s.season].likelihood)
      && (forall k :: k != s.season ==> (k in r.history <==> k in s.history))
      && (forall k :: k != s.season && k in s.history ==> r.history[k] == s.history[k])
      && r.(screen := s.screen, error := s.error, shock := s.shock, farmer := s.farmer, history := s.history) == s
  {
    if |s.selected| < MinSelected then
      s.(error := TooFewPractices)
    else
      var (shock, score) := ScoreSeason(s.farmer.value.current, s.selected, hasShock, idx);
      var slot :=
        if s.season in s.history
        then s.history[s.season].(practices := s.selected, weather := shock, score := score)
        else HistorySlot(s.selected, shock, score, map[]);
      s.(error := "", shock := shock,
         farmer := Some(s.farmer.value.(current := score)),
         history := s.history[s.season := slot],
         screen := WeatherResult)
  }

  /** Leaving the weather result: the likelihood screen starts unanswered. */
  function ContinueWeather(s: Session): (r: Session)
    ensures r.screen == Likelihood && r.answers == map[]
    ensures r.(screen := s.screen, answers := s.answers) == s
  {
    s.(screen := Likelihood, answers := map[])
  }

  /** Choosing one answer for one practice. */
  function AnswerPractice(s: Session, id: int, a: Answer): (r: Session)
    ensures id in r.answers && r.answers[id] == a
    ensures forall k :: k != id ==> (k in r.answers <==> k in s.answers)
    ensures forall k :: k != id && k in s.answers ==> r.answers[k] == s.answers[k]
    ensures r.(answers := s.answers) == s
  {
    s.(answers := s.answers[id := a])
  }

  /** The record the likelihood submit appends for the current season. */
  function CurrentRecord(s: Session): (rec: SeasonRecord)
    requires s.farmer.Some? && AllKnown(s.selected)
    ensures rec.season == s.season && rec.seasonType == SeasonLabel(s.season)
    ensures rec.practices == PracticeNamesOf(s.selected)
    ensures rec.shockName == (if s.shock.Some? then s.shock.value.name else NoShockName)
    ensures rec.endScore == s.farmer.value.current && rec.likelihood == s.answers
  {
    SeasonRecord(s.season, SeasonLabel(s.season), PracticeNamesOf(s.selected),
                 if s.shock.Some? then s.shock.value.name else NoShockName,
                 s.farmer.value.current, s.answers)
  }

  /** The likelihood submit as `handleLikelihoodSubmit` is written: appends this season's
      record, stores the answers in the season's history slot, then either
      moves to the next season's intro with the selections and shock
      cleared, or, after season 3, to the summary. The answers themselves
      are not cleared. */
  function SubmitLikelihoodAsWritten(s: Session): (r: Session)
    requires s.farmer.Some? && AllKnown(s.selected) && AllAnswered(s.selected, s.answers)
    ensures r.records == s.records + [CurrentRecord(s)]
    ensures s.season in r.history && r.history[s.season].likelihood == s.answers
    ensures forall k :: k != s.season ==> (k in r.history <==> k in s.history)
    ensures forall k :: k != s.season && k in s.history ==> r.history[k] == s.history[k]
    ensures s.season < 3 ==>
      r.season == s.season + 1 && r.selected == [] && r.shock == None && r.screen == SeasonIntro
    ensures s.season >= 3 ==>
      r.season == s.season && r.selected == s.selected && r.shock == s.shock && r.screen == Summary
    ensures r.answers == s.answers && r.farmer == s.farmer
    ensures s.season in s.history ==> r.history[s.season] == s.history[s.season].(likelihood := s.answers)
    ensures r.(records := s.records, history := s.history, season := s.season, selected := s.selected,
               shock := s.shock, screen := s.screen) == s
  {
    var slot :=
      if s.season in s.history then s.history[s.season].(likelihood := s.answers)
      else HistorySlot([], None, 0, s.answers);
    var t := s.(records := s.records + [CurrentRecord(s)], history := s.history[s.season := slot]);
    if s.season < 3 then
      t.(season := s.season + 1, selected := [], shock := None, screen := SeasonIntro)
    else
      t.(screen := Summary)
  }

  /** The likelihood submit with the correction this model uses: moving on
      to the next season also clears the answers. */
  function SubmitLikelihood(s: Session): (r: Session)
    requires s.farmer.Some? && AllKnown(s.selected) && AllAnswered(s.selected, s.answers)
    ensures r.records == s.records + [CurrentRecord(s)]
    ensures s.season < 3 ==> r == SubmitLikelihoodAsWritten(s).(answers := map[])
    ensures s.season >= 3 ==> r == SubmitLikelihoodAsWritten(s)
  {
    var t := SubmitLikelihoodAsWritten(s);
    if s.season < 3 then t.(answers := map[]) else t
  }

  // ------------------------------------------------------------------ back

  /** The Back button's transition table. From a later season's intro and
      from the summary it re-enters the previous likelihood screen with that
      season's practices and answers restored from the history. It never
      removes a season record. */
  function Back(s: Session): (r: Session)
    requires s.screen == SeasonIntro && s.season != 1 ==> s.season - 1 in s.history
    requires s.screen == Summary ==> 3 in s.history
    ensures r.records == s.records && r.farmer == s.farmer && r.history == s.history
    ensures s.screen == FarmerLookup ==> r == s.(screen := Dashboard)
    ensures s.screen == SeasonIntro && s.season == 1 ==> r == s.(screen := FarmerLookup)
    ensures s.screen == SeasonIntro && s.season != 1 ==>
      r == s.(season := s.season - 1, selected := s.history[s.season - 1].practices,
              answers := s.history[s.season - 1].likelihood, screen := Likelihood)
    ensures s.screen == PracticeSelection ==> r == s.(screen := SeasonIntro)
    ensures s.screen == WeatherResult ==> r == s.(screen := PracticeSelection)
    ensures s.screen == Likelihood ==> r == s.(screen := WeatherResult)
    ensures s.screen == Summary ==>
      r == s.(selected := s.history[3].practices, answers := s.history[3].likelihood, screen := Likelihood)
    ensures s.screen == Dashboard ==> r == s
  {
    match s.screen
    case FarmerLookup => s.(screen := Dashboard)
    case SeasonIntro =>
      if s.season == 1 then s.(screen := FarmerLookup)
      else
        var prev := s.history[s.season - 1];
        s.(season := s.season - 1, selected := prev.practices, answers := prev.likelihood, screen := Likelihood)
    case PracticeSelection => s.(screen := SeasonIntro)
    case WeatherResult => s.(screen := PracticeSelection)
    case Likelihood => s.(screen := WeatherResult)
    case Summary =>
      var last := s.history[3];
      s.(selected := last.practices, answers := last.likelihood, screen := Likelihood)
    case Dashboard => s
  }
}

=== FILE: text.dfy ===
/** The string operations the farmer search uses: blank test (`trim() ===
    ''`), lower-casing and substring search (`includes`). */
module Text {

  /** The white-space characters `String.prototype.trim` strips, restricted
      to ASCII and the no-break space. */
  predicate IsSpace(c: char) {
    c == ' ' || c == '\t' || c == '\n' || c == '\r' || c == '\U{000B}' || c == '\U{000C}' || c == '\U{00A0}'
  }

  /** `s.trim() === ''`: nothing but white space. */
  predicate Blank(s: string)
    ensures Blank(s) <==> forall c :: c in s ==> IsSpace(c)
    ensures |s| == 0 ==> Blank(s)
  {
    forall i :: 0 <= i < |s| ==> IsSpace(s[i])
  }

  function LowerChar(c: char): (d: char)
    ensures 'A' <= c <= 'Z' ==> 'a' <= d <= 'z' && d as int == c as int + 32
    ensures !('A' <= c <= 'Z') ==> d == c
  {
    if 'A' <= c <= 'Z' then (c as int + 32) as char else c
  }

  /** Lower-cases the ASCII letters of `s`. */
  function Lower(s: string): (r: string)
    ensures |r| == |s|
    ensures forall i :: 0 <= i < |s| ==> r[i] == LowerChar(s[i])
  {
    seq(|s|, i requires 0 <= i < |s| => LowerChar(s[i]))
  }

  /** Lower-casing twice is lower-casing once. */
  lemma LowerIdempotent(s: string)
    ensures Lower(Lower(s)) == Lower(s)
  {
  }

  /** `hay.includes(needle)`, scanning start positions from the left. */
  predicate Contains(hay: string, needle: string)
    decreases |hay|
  {
    (|needle| <= |hay| && hay[..|needle|] == needle) || (|hay| > 0 && Contains(hay[1..], needle))
  }

  /** Reference meaning of `Contains`: `needle` occurs at some position. */
  ghost predicate OccursAt(hay: string, needle: string, i: int) {
    0 <= i && i + |needle| <= |hay| && hay[i..i + |needle|] == needle
  }

  /** An occurrence past the first position is an occurrence in the tail. */
  lemma OccursShift(hay: string, needle: string, i: int)
    requires 0 < i && 0 < |hay|
    ensures OccursAt(hay, needle, i) <==> OccursAt(hay[1..], needle, i - 1)
  {
    if i + |needle| <= |hay| {
      assert hay[1..][i - 1..i - 1 + |needle|] == hay[i..i + |needle|];
    }
  }

  /** The scan finds the needle exactly when it occurs somewhere. */
  lemma {:induction false} ContainsIff(hay: string, needle: string)
    ensures Contains(hay, needle) <==> exists i :: OccursAt(hay, needle, i)
  {
    if |needle| <= |hay| && hay[..|needle|] == needle {
      assert OccursAt(hay, needle, 0);
    } else if |hay| == 0 {
      assert |needle| > 0;
    } else {
      ContainsIff(hay[1..], needle);
      if Contains(hay[1..], needle) {
        var i :| OccursAt(hay[1..], needle, i);
        OccursShift(hay, needle, i + 1);
      } else {
        forall i | 0 < i
          ensures !OccursAt(hay, needle, i)
        {
          OccursShift(hay, needle, i);
        }
      }
    }
  }

  /** Every string contains itself. */
  lemma ContainsSelf(s: string)
    ensures Contains(s, s)
  {
    assert s[..|s|] == s;
  }
}
